=== FILE: README.md ===
# translator-by-speech in Dafny

This project models the working core of translator-by-speech, a
Vietnamese/English speech translator. The core is:

- the interactive `TranslationCLI` (translator_by_speech/cli.py): lazily
  loaded models, the language pair, the commands, the output file names
  and the read–eval loop;
- the microphone recorder (translator_by_speech/record.py): fixed-length
  and silence-terminated capture, amplitude of 16-bit chunks, WAV saving;
- `SpeechTranslationPipeline` (translator_by_speech/pipeline.py): pair
  validation and "recognise, then translate that text";
- the stand-alone recorder of src/helpers.py;
- the entry point main.py;
- dataset preparation and the padding collator of data/setup.py.

The model makes these simplifications:

- **Pretrained models.** Speech recognition and translation are
  uninterpreted functions (`Pipeline.Models`). A `None` from either stands
  for the call raising.
- **Files.** The file system is a map from path to file
  (`Files.FileSystem`). A text file holds a string; an audio file holds a
  WAV record with channels, sample width, frame rate and frame bytes.
- **Devices.** The microphone is the finite sequence of reads it returns,
  each with the clock reading taken after it (`Capture.Reading`). The
  timestamp of `datetime.now()` is a string parameter.
- **Console.** Everything the CLI prints is a `Cli.Report` value. Its
  input is a sequence of `Cli.Event`s: a line, a keyboard interrupt, or
  end of input.

The modules follow the program's files:

| module | file | what it holds |
|---|---|---|
| `Wrappers` | — | `Option`, `Result` |
| `Text` | — | Python's `str.isspace`, `split`, `strip`, `lower`, `replace`, `int()`, `os.path.basename`, `os.path.join` |
| `Pcm` | — | bytes, little-endian int16, peak amplitude |
| `Files` | — | the file map; `soundfile.read` of a 16-bit WAV |
| `Capture` | translator_by_speech/record.py | the recorder |
| `Pipeline` | translator_by_speech/pipeline.py | the pipeline |
| `Helpers` | src/helpers.py | the stand-alone recorder |
| `Cli` | translator_by_speech/cli.py | the CLI |
| `Entry` | main.py | the entry point |
| `DataPrep` | data/setup.py | dataset preparation and collation |

Some source behaviour is modelled as written and proved, even though it
may look surprising:

- In main.py, `--interactive` never changes the outcome
  (`Entry.InteractiveFlagIrrelevant`).
- In main.py, `--record N --process FILE` makes a recording and processes
  nothing (`Entry.RecordWithProcessProcessesNothing`).
- In the CLI, `record` with no duration records until silence. `record 0`
  records for five seconds (`Cli.RecordAudioModes`).
- The `{"text": ""}` result of `transcribe` on failure is the empty
  string.

The one behaviour treated as a defect is under "## Findings".

## Model

| member | source | states |
|---|---|---|
| Text.SplitContents | translator_by_speech/cli.py:396 | `split()` drops exactly the whitespace: the fields, concatenated, are the line with every whitespace character removed |
| Text.SplitEmpty | translator_by_speech/cli.py:392-396 | a line splits into no fields exactly when it is all whitespace |
| Text.SplitJoin | translator_by_speech/cli.py:345 | joining whitespace-free words with single spaces and splitting again gives back the same words |
| Text.SplitStrip | translator_by_speech/cli.py:392-396 | stripping a line first never changes its fields |
| Text.StripEmpty | translator_by_speech/cli.py:392-394 | a stripped line is empty exactly when the raw line is all whitespace, so only such lines are skipped |
| Text.StripLeading | translator_by_speech/cli.py:392 | the result is a suffix of the input, everything removed is whitespace, and it does not start with whitespace |
| Text.StripTrailing | translator_by_speech/cli.py:392 | the result is a prefix of the input, everything removed is whitespace, and it does not end with whitespace |
| Text.Basename | translator_by_speech/cli.py:148 | the base name is the part of the path after its last `/`: a suffix with no `/`, preceded by `/` when shorter than the path |
| Text.BasenameOfJoin | translator_by_speech/record.py:84-88 | the base name of `os.path.join(dir, name)` is `name` when `name` has no `/` |
| Text.ReplaceFinal | translator_by_speech/cli.py:148 | `replace(".wav", ".txt")` on `stem + ".wav"` gives `stem + ".txt"` when the pattern does not occur earlier |
| Text.ReplaceAbsent | translator_by_speech/cli.py:148 | `replace` leaves a string without the pattern unchanged |
| Text.ParseShowInt | translator_by_speech/cli.py:329 | `int()` reads back every integer written in decimal, negative ones included |
| Pcm.SliceValues | translator_by_speech/record.py:113-114 | the signed little-endian value of each byte pair, in order; an odd last byte is read on its own, sign-extended |
| Pcm.MaxAbs | translator_by_speech/record.py:113-115 | the result bounds the absolute value of every element and is attained by one |
| Pcm.Amplitude | translator_by_speech/record.py:112-115 | a chunk has an amplitude exactly when it is non-empty; the amplitude is at most 32768, bounds every sample's magnitude and is attained |
| Pcm.AmplitudeOfMinimum | translator_by_speech/record.py:113-115 | the sample −32768 has amplitude 32768: the amplitude is taken on Python integers and does not wrap |
| Pcm.DecodeInt16 | src/helpers.py:40 | decoding fails exactly on an odd byte count; otherwise it gives half as many samples as bytes |
| Pcm.EncodeInt16 | src/helpers.py:50 | encoding gives two bytes per sample |
| Pcm.DecodeEncode | src/helpers.py:40-50 | decoding the bytes of encoded samples gives back the same samples |
| Pcm.EncodeDecode | src/helpers.py:40-50 | encoding the samples decoded from an even byte string gives back the same bytes |
| Files.ReadAudio | translator_by_speech/speech_recognition.py:69 | reading succeeds only on an existing 16-bit audio file and reports that file's rate and channel count |
| Files.ReadWritten | translator_by_speech/speech_recognition.py:69 | reading a freshly written 16-bit file gives back the written samples, rate and channel count |
| Capture.Trunc | translator_by_speech/record.py:54 | Python `int()` on a number truncates toward zero: it is within one, on the side of zero |
| Capture.FixedChunkCount | translator_by_speech/record.py:54-56 | the number of reads is the largest `n` with `n*chunk <= rate*duration`, and 0 for a duration that is not positive |
| Capture.DefaultRecordingChunks | translator_by_speech/record.py:12-15 | five seconds at 44100 Hz in 1024-frame reads is 215 reads |
| Capture.CliSilenceBound | translator_by_speech/record.py:123 | 1.5 seconds of silence at 44100 Hz in 1024-frame reads is 64 quiet reads |
| Capture.QuietRun | translator_by_speech/record.py:117-120 | the silence counter after `n` reads is the number of consecutive quiet reads that end the prefix |
| Capture.UntilSilence | translator_by_speech/record.py:107-130 | the loop stops after the first read where the counter reaches the bound or the clock passes the maximum, and not earlier; it gives the reason; an empty read fails it |
| Capture.ScanFrom | translator_by_speech/record.py:107-130 | from any point where no stop condition has held yet, the loop stops at the first read that meets one |
| Capture.StopsByDeadline | translator_by_speech/record.py:128-130 | a read taken after the maximum duration stops the loop by that read at the latest |
| Capture.ZeroBoundStopsAtOnce | translator_by_speech/record.py:123-125 | with a silence bound of 0 or less, the loop stops after the first read, reporting silence |
| Capture.ThresholdIsSound | translator_by_speech/record.py:117-120 | a read whose amplitude equals the threshold is not quiet and resets the counter |
| Capture.SaveAudio | translator_by_speech/record.py:141-149 | the saved file is mono, 16-bit, 44.1 kHz, holding the reads joined in order |
| Capture.DefaultRecordingPath | translator_by_speech/record.py:84-88 | without a file name, the recording is `dir/recording_<timestamp>.wav` |
| Capture.Record | translator_by_speech/record.py:24-67 | a fixed-length recording succeeds exactly when the device delivers all the reads; it saves those reads, in order, at the requested path |
| Capture.RecordUntilSilence | translator_by_speech/record.py:69-139 | a silence-terminated recording saves exactly the reads up to the stopping read, at the requested path, and fails exactly when the loop does |
| Capture.RecordedFrameCount | translator_by_speech/record.py:147 | full reads give `reads * 2 * CHUNK` bytes of frames |
| Helpers.OpenStream | src/helpers.py:22-28 | the stream is 16-bit mono input at the sample rate with one chunk per buffer |
| Helpers.RecordAudio | src/helpers.py:8-42 | a zero chunk size fails exactly; otherwise the samples are the concatenated reads decoded, and re-encoding them gives those bytes back |
| Helpers.RecordedSampleCount | src/helpers.py:30-40 | when every read holds a full chunk, recording succeeds with reads × `chunk_size` samples |
| Helpers.RecordFiveSecondsAt16k | tests/test_record.py:45-50 | five seconds at 16 kHz in 1024-frame reads is 78 reads and 79872 samples |
| Helpers.SaveAudio | src/helpers.py:45-50 | saving adds one mono 16-bit file at the given rate and changes no other file |
| Helpers.SaveThenRead | src/helpers.py:45-50 | a saved recording reads back as the same samples at the same rate |
| Pipeline.TranscribeFile | translator_by_speech/speech_recognition.py:51-77 | a file that cannot be read fails before recognition; otherwise recognition runs on what was read |
| Pipeline.NewPipeline | translator_by_speech/pipeline.py:12-51 | construction fails exactly when no translator is supplied and the pair is not `vi→en_XX` or `en→vi_VN`; the default recogniser fills a gap; a supplied translator is kept |
| Pipeline.DefaultTranslatorMatchesPair | translator_by_speech/pipeline.py:41-49 | a translator the pipeline picks itself translates into the target language, from the recogniser's language |
| Pipeline.TranslateSpeechFromFile | translator_by_speech/pipeline.py:53-77 | the result holds exactly the recognised text, its translation and the two languages; a missing file gives no result |
| Pipeline.TranslateSpeech | translator_by_speech/pipeline.py:79-106 | the same for samples recognised as mono audio at the given rate |
| Pipeline.ResultDeterminedByText | translator_by_speech/pipeline.py:53-106 | equal recognised texts give equal results from both entry points |
| Pipeline.FileMatchesArray | translator_by_speech/speech_recognition.py:68-77 | processing a mono file is processing its samples at its rate |
| Cli.InitialIsGood | translator_by_speech/cli.py:29-49 | a fresh CLI has a valid pair (vi → en) and consistent loaded models |
| Cli.CliPipelinesAreDefaults | translator_by_speech/cli.py:75-97 | the CLI's two pipelines are what the pipeline constructor builds, with or without the models passed in |
| Cli.SwitchLanguages | translator_by_speech/cli.py:255-258 | the two languages trade places and nothing loaded changes |
| Cli.SwitchTwice | translator_by_speech/cli.py:255-258 | switching twice restores the session |
| Cli.SetLanguages | translator_by_speech/cli.py:260-274 | both codes must be supported, or nothing changes; the loaded models are kept |
| Cli.SetLanguagesAllOrNothing | translator_by_speech/cli.py:268-273 | the pair is either fully replaced or left as it was, and a valid session stays valid |
| Cli.Route | translator_by_speech/cli.py:172-180 | vi→en uses the vi2en translator and en→vi the en2vi one; every other pair has none |
| Cli.RouteOfGoodSession | translator_by_speech/cli.py:204-212 | in a valid session, a translator exists exactly when the two languages differ |
| Cli.PipelineForDirection | translator_by_speech/cli.py:75-97 | the pipeline chosen for a direction uses that direction's translator, the CLI's recogniser and its source language |
| Cli.TranslateText | translator_by_speech/cli.py:161-186 | the text goes to the pair's translator only, which is loaded; no translator, or a raising one, gives the empty string; the pair never changes |
| Cli.TranslateTextUsesOnlyRoute | translator_by_speech/cli.py:171-182 | only the chosen translator's answer on that text affects the outcome |
| Cli.ProcessStemOfWav | translator_by_speech/cli.py:219 | for a stem with no '.' or '/', the outputs of `dir/stem.wav` are named after `stem`: the base name without its `.wav` |
| Cli.ProcessPathsDistinct | translator_by_speech/cli.py:222-231 | the transcript and translation files of one input never coincide |
| Cli.TranscriptName | translator_by_speech/cli.py:147-149 | for a stem with no '.' or '/', `dir/stem.wav` is transcribed to `transcripts/stem.txt` |
| Cli.ProcessTranscriptName | translator_by_speech/cli.py:219-226 | for a stem with no '.' or '/', `dir/stem.wav` is processed to `transcripts/stem_transcript.txt` |
| Cli.ProcessTranslationName | translator_by_speech/cli.py:219-231 | for a stem with no '.' or '/', `dir/stem.wav` is processed to `transcripts/stem_translation.txt` |
| Cli.RecordingOutputNames | translator_by_speech/cli.py:242-253 | a default recording lands in `recordings/recording_<stamp>.wav` and is processed to `transcripts/recording_<stamp>_transcript.txt` and `_translation.txt` |
| Cli.TranscribeAudio | translator_by_speech/cli.py:130-159 | the recogniser is loaded; a recognised file with a base name writes its text to the transcript file and returns it; otherwise `""` and no file changes |
| Cli.ProcessAudioFile | translator_by_speech/cli.py:188-240 | a missing file or a pair with no direction does nothing; otherwise the direction's pipeline is loaded and runs; a result writes exactly the two output files, other files unchanged |
| Cli.EffectiveDuration | translator_by_speech/cli.py:119 | a missing or zero duration becomes 5 seconds; any other is kept |
| Cli.RecordAudio | translator_by_speech/cli.py:99-128 | recording returns the new file's path and adds that file, or returns `""` and changes nothing |
| Cli.RecordAudioModes | translator_by_speech/cli.py:112-121 | with no duration, recording runs until 64 quiet reads or 60 seconds; otherwise a missing or zero duration records the 215 reads of five seconds |
| Cli.RecordAndProcess | translator_by_speech/cli.py:242-253 | a failed recording does nothing more; a recording made is processed as a file |
| Cli.RecordedFileIsProcessed | translator_by_speech/cli.py:249-253 | the pipeline runs on the file the recording just wrote |
| Cli.ParseCommand | translator_by_speech/cli.py:318-377 | a word is an unknown command exactly when it is not one of the ten command words |
| Cli.ParseCommandName | translator_by_speech/cli.py:318-377 | every known command is parsed back from its own word |
| Cli.Dispatch | translator_by_speech/cli.py:318-379 | only `record` with a non-integer argument raises; only `exit` stops; missing arguments and unknown commands change nothing; only commands that record or transcribe touch files |
| Cli.HandleCommand | translator_by_speech/cli.py:307-379 | the same properties, stated on the command word, plus: models are only ever added and a valid session stays valid |
| Cli.CommandNameInjective | translator_by_speech/cli.py:318-373 | each command branch is taken for exactly its own word |
| Cli.TranslateCommandText | translator_by_speech/cli.py:340-347 | `translate w1 … wn` translates exactly the words joined by single spaces |
| Cli.ParseLine | translator_by_speech/cli.py:392-398 | a line is skipped exactly when it is all whitespace; otherwise it gives its first field lower-cased and the remaining fields |
| Cli.ParseLineOfWords | translator_by_speech/cli.py:392-398 | a line of space-separated words gives its first word lower-cased and the rest |
| Cli.StepOf | translator_by_speech/cli.py:390-406 | one pass stops exactly on an exit line or at end of input (corrected behaviour); models are only added and a valid session stays valid |
| Cli.LineStep | translator_by_speech/cli.py:392-406 | a typed line stops the loop exactly when it is the exit command; a blank line shows nothing and changes nothing; a command that raises (`record` with a non-integer argument) shows the error and changes nothing; any other command's effect and report are the step's |
| Cli.ExitStep | translator_by_speech/cli.py:318-320 | an exit line stops with the world unchanged |
| Cli.Run | translator_by_speech/cli.py:381-409 | the loop exits exactly when an exit line or the end of input arrives (corrected behaviour) |
| Cli.RunKeepsGood | translator_by_speech/cli.py:390-406 | a valid session stays valid through the whole loop, and models are never unloaded |
| Cli.RunAppend | translator_by_speech/cli.py:390-406 | running two inputs in turn, the first not exiting, is running them joined |
| Cli.SkippedEvents | translator_by_speech/cli.py:392-406 | a blank line, a keyboard interrupt or a command that raises has no effect on the rest of the session; an interrupt only shows that the operation was cancelled, and a raising command only shows the error |
| Cli.RecordWithoutNumberRaises | translator_by_speech/cli.py:328-329 | `record <arg>` raises whenever `int()` rejects `arg`, as with `record abc` |
| Cli.ExitStopsRun | translator_by_speech/cli.py:390-400 | nothing after the first exit line is read |
| Cli.RunFromExit | translator_by_speech/cli.py:318-320 | input that starts with an exit line ends the loop at once |
| Cli.EndOfInputEndsRun | translator_by_speech/cli.py:390-406 | nothing after end of input is read, and the loop exits (corrected behaviour) |
| Cli.RunFromEndOfInput | translator_by_speech/cli.py:390-406 | input that starts at end of input ends the loop at once (corrected behaviour) |
| Cli.StepAsWritten | translator_by_speech/cli.py:390-406 | as written, a pass stops only on an exit line; end of input is caught by the catch-all handler, which shows the error and leaves the world unchanged |
| Cli.RunAsWritten | translator_by_speech/cli.py:381-409 | as written, the loop exits exactly when an exit line arrives |
| Cli.RunAsWrittenKeepsGood | translator_by_speech/cli.py:390-406 | as written too, a valid session stays valid through the whole loop, and models are never unloaded |
| Cli.RunMatchesAsWritten | translator_by_speech/cli.py:390-406 | on input that contains no end of input, the corrected loop and the loop as written give the same world, exit and output |
| Cli.EndOfInputSpinsAsWritten | translator_by_speech/cli.py:392-406 | as written, `n` end-of-input reads leave the loop running with the world unchanged, and show the caught error `n` times |
| Entry.ChooseAction | main.py:13-21 | the branch taken: records when `--record` is given, with or without processing; processes a file only without `--record` |
| Entry.Main | main.py:4-21 | each branch runs on the fresh CLI with the command-line languages set |
| Entry.Start | main.py:10 | the command-line languages are taken when both are supported; the session is valid with nothing loaded |
| Entry.InteractiveFlagIrrelevant | main.py:19-21 | `--interactive` never changes the outcome, and the no-action branch is unreachable |
| Entry.RecordNeverInteractive | main.py:13-16 | any `--record`, even 0, records and never starts the loop |
| Entry.RecordWithProcessProcessesNothing | main.py:13-16 | `--record` with `--process` adds only the recording and writes no transcript |
| Entry.ProcessWithoutRecord | main.py:17-18 | `--process` alone processes that file, with or without `--interactive` |
| Entry.DefaultIsInteractive | main.py:19-21 | with neither a recording nor a file, the loop runs |
| Entry.RecordThenProcess | main.py:13-16 | `--record` alone processes the fresh recording through the pair's pipeline |
| DataPrep.PrepareDs | data/setup.py:6-21 | fails exactly on an example with no audio or no transcription; otherwise adds the four fields from the audio and its tokenized text and keeps every other field |
| DataPrep.PreparedFields | data/setup.py:13-18 | the prepared features and labels are those of the example's audio and transcription |
| DataPrep.FilterBoundaries | data/setup.py:24-31 | audio is kept for lengths 1 to 479999 samples; labels for up to 447 tokens |
| DataPrep.PreparedExampleKept | data/setup.py:24-31 | a prepared example passes the filters exactly when its audio is non-empty and under 30 s and its labels are under 448 tokens |
| DataPrep.MaxLen | data/setup.py:46 | the longest row's length, bounding all rows |
| DataPrep.PadLabels | data/setup.py:46 | every row is right-padded to the longest, keeping its ids under a mask of 1 and padding under 0 |
| DataPrep.CollateLabels | data/setup.py:43-52 | each label row, padded to the longest with −100 and without the leading BOS column exactly when every row starts with BOS; `None` on an empty batch |
| DataPrep.PadIdIrrelevant | data/setup.py:46-49 | the tokenizer's pad id never appears in the result |
| DataPrep.BosStripCondition | data/setup.py:51-52 | the BOS column is dropped exactly when every row is non-empty and starts with BOS |
| DataPrep.CollatedRowsKeepTokens | data/setup.py:46-52 | every original token keeps its place, shifted by the dropped column; padding positions hold −100 |
| DataPrep.CollateExample | data/setup.py:39-55 | `[[bos,5,6],[bos,7]]` collates to `[[5,6],[7,−100]]` |
| DataPrep.Collate | data/setup.py:39-55 | the batch holds the padded features and the collated labels, one row per example; it fails exactly when a field is missing or the labels are empty |
| DataPrep.PreparedLabelRows | data/setup.py:18-43 | collating prepared examples uses each example's tokenized transcription as its label row |

## Left out

- Model internals: loading pretrained weights, devices and dtypes, audio normalisation and decoding in the recogniser, and tokenization and generation in the translator. These are uninterpreted functions, and loading never fails.
- The `language` and `timestamps` fields of a transcription result: only the text is modelled.
- `soundfile.read` float scaling, the recogniser's division of an int16 array by its peak (translator_by_speech/speech_recognition.py:98-104) and its averaging of stereo to mono: the recogniser receives int16 samples and the channel count on both paths, so `Pipeline.FileMatchesArray` holds only under this abstraction.
- Directories: `os.makedirs` and `os.path.exists` on a directory. A path exists when it is a key of the file map, and writes into `transcripts/` always succeed, except `transcribe` on a path with an empty base name, whose write fails and is caught.
- Console text: `print_help`, `print_status` and the messages are reduced to `Report` values. The loop's error and cancellation messages are `ErrorShown` and `Cancelled`, without the exception's text. Confirmation and progress messages, such as those of `exit`, `switch`, `lang` and recording, are shown as `NoReport`. `os.path.abspath` in the status text is not modelled.
- Entry.Main: the interactive branch runs the corrected loop `Cli.Run`, which ends at end of input, where main.py's loop keeps reading (see "## Findings"). The two agree on every input that contains no end of input (`Cli.RunMatchesAsWritten`).
- Files.ReadAudio: only 16-bit PCM WAV files are read; `soundfile.read` also reads 8-, 24- and 32-bit PCM, which the model treats as unreadable. Both of the program's WAV writers produce only 16-bit files (translator_by_speech/record.py:141-149, src/helpers.py:45-50), so every file the program records is readable. The model also trims a file to whole 2-byte samples rather than whole frames, so for a file with two or more channels and a partial last frame it keeps samples that `soundfile.read` drops; the program only writes mono files.
- Blocking reads: a real microphone blocks, but the modelled one runs out, which is reported as `StreamEnded`. Clock readings are given with each read rather than taken from `time.time()`.
- Stream and PyAudio clean-up: `stop_stream`, `close`, `terminate` and `__del__`.
- A keyboard interrupt inside a command, and the outer handler of `run`: an interrupt is modelled between commands only, where it has no effect.
- Parsing: argparse's parsing and its `choices` check on `--source`/`--target`. `Entry.Args` holds the parsed values, and `set_languages` ignores unsupported codes anyway.
- Text: `str.lower` is modelled on ASCII letters only, and `int()` on ASCII digits only (with `_` separators). Unicode case mapping and non-ASCII digits are not.
- Libraries: `feature_extractor.pad` is an uninterpreted function; `tokenizer.pad` is taken to right-pad to the longest row, its default. Tensors are sequences of sequences.
- DataPrep.Collate: an empty batch, or one whose labels are all empty, gives `None` rather than whatever the tensor library does on an empty column.
- Capture.Trunc: float rounding is not modelled. Chunk counts are computed in exact rationals and then truncated, which agrees with IEEE doubles for the constants the program uses.
- Helpers.RecordAudio: `sample_rate / chunk_size * duration` with a fractional duration is not modelled; durations are integers.
- Other files: src/translator.py, src/translator_by_speech/record.py, src/translator_by_speech/default.py, model/whisper.py, data/load.py and utils/metric.py are not part of this model. Neither is the dataset list or the training hyperparameters of utils/const.py.

## Findings

| source | as written | input that shows it | evidently intended | confidence | as-written member | corrected member |
|---|---|---|---|---|---|---|
| translator_by_speech/cli.py:390-406 | at end of input, `input()` raises `EOFError`; the loop's catch-all `except Exception` prints it and, with `running` still true, reads again, so the loop never ends and prints the same error on every pass | standard input closed or exhausted without an `exit` line, e.g. Ctrl-D at the prompt or a piped script | end of input ends the session | high; not executed | Cli.EndOfInputSpinsAsWritten | Cli.EndOfInputEndsRun |

The rest of the model uses the corrected loop (`Cli.StepOf`, `Cli.Run`),
including `Entry.Main`.
`Cli.StepAsWritten` and `Cli.RunAsWritten` model the code as written.


=== FILE: capture.dfy ===
/**
 * The `AudioRecorder` of translator_by_speech/record.py with the microphone
 * replaced by the sequence of reads it would return. Each read carries the
 * bytes of one `stream.read(chunk)` and the seconds elapsed since capture
 * began, as `time.time() - start_time` reads right after it.
 */
module Capture {
  import opened Wrappers
  import opened Pcm
  import Text

  /** Stream parameters of the recorder: 16-bit mono at 44.1 kHz in 1024-frame reads. */
  const RATE: nat := 44100
  const CHUNK: nat := 1024
  const CHANNELS: nat := 1
  /** `PyAudio.get_sample_size(paInt16)`. */
  const SAMPLE_WIDTH: nat := 2

  /** Python's `int(x)` on a number: truncation toward zero. */
  function Trunc(x: real): (n: int)
    ensures x >= 0.0 ==> 0 <= n && n as real <= x < n as real + 1.0
    ensures x < 0.0 ==> n <= 0 && n as real - 1.0 < x <= n as real
  {
    if x >= 0.0 then x.Floor else -((-x).Floor)
  }

  /**
   * The number of iterations of `range(0, int(rate / chunk * duration))`:
   * the whole chunks that fit in `duration` seconds, none for a duration
   * that is not positive.
   */
  function FixedChunkCount(rate: nat, chunk: nat, duration: int): (n: nat)
    requires chunk > 0
    ensures duration >= 0 ==> n * chunk <= rate * duration < (n + 1) * chunk
    ensures duration <= 0 ==> n == 0
  {
    var x := rate as real / chunk as real * duration as real;
    var t := Trunc(x);
    if duration >= 0 then
      ScaledFloor(rate, chunk, duration, x, t);
      t
    else
      0
  }

  lemma ScaledFloor(rate: nat, chunk: nat, duration: int, x: real, t: int)
    requires chunk > 0 && duration >= 0
    requires x == rate as real / chunk as real * duration as real
    requires 0 <= t && t as real <= x < t as real + 1.0
    ensures t * chunk <= rate * duration < (t + 1) * chunk
  {
    assert x * chunk as real == (rate * duration) as real by {
      ScaleBack(rate as real, chunk as real, duration as real);
      RealOfProduct(rate, duration);
    }
    IntBracket(t, chunk, rate * duration, x);
  }

  /** `t <= x < t + 1` with `x * chunk` an integer puts that integer between `t * chunk` and `(t + 1) * chunk`. */
  lemma IntBracket(t: int, chunk: nat, product: int, x: real)
    requires chunk > 0 && t as real <= x < t as real + 1.0
    requires x * chunk as real == product as real
    ensures t * chunk <= product < (t + 1) * chunk
  {
    assert x < (t + 1) as real;
    RealBracket(t as real, (t + 1) as real, x, chunk as real, product as real);
    RealOfProduct(t, chunk);
    RealOfProduct(t + 1, chunk);
    RealLe(t * chunk, product);
    RealLt(product, (t + 1) * chunk);
  }

  lemma RealBracket(lo: real, hi: real, x: real, c: real, p: real)
    requires lo <= x < hi && c > 0.0 && x * c == p
    ensures lo * c <= p < hi * c
  {
    MulMono(lo, x, c);
    MulStrict(x, hi, c);
  }

  lemma RealLe(a: int, b: int)
    requires a as real <= b as real
    ensures a <= b
  {
  }

  lemma RealLt(a: int, b: int)
    requires a as real < b as real
    ensures a < b
  {
  }

  lemma RealOfProduct(a: int, b: int)
    ensures (a * b) as real == a as real * b as real
  {
  }

  lemma ScaleBack(r: real, c: real, d: real)
    requires c > 0.0
    ensures (r / c * d) * c == r * d
  {
    calc {
      (r / c * d) * c;
      == (r / c * c) * d;
      == r * d;
    }
  }

  lemma MulMono(a: real, b: real, c: real)
    requires a <= b && c >= 0.0
    ensures a * c <= b * c
  {
  }

  lemma MulStrict(a: real, b: real, c: real)
    requires a < b && c > 0.0
    ensures a * c < b * c
  {
  }

  /** The default five-second recording is 215 reads of 1024 frames. */
  lemma DefaultRecordingChunks()
    ensures FixedChunkCount(RATE, CHUNK, 5) == 215
  {
  }

  /** One microphone read and the clock reading taken right after it. */
  datatype Reading = Reading(data: Bytes, elapsed: real)

  datatype StopReason = SilenceDetected | MaxDurationReached

  /**
   * Why a capture produced no file: a read returned no bytes (the amplitude
   * `max` raises), or the modelled stream ended where a real device would
   * keep blocking.
   */
  datatype CaptureError = EmptyChunk | StreamEnded

  /** A finished silence-terminated capture: how many reads it took and why it stopped. */
  datatype Stop = Stop(used: nat, reason: StopReason)

  /** What the loop inspects in a read: its amplitude (`None` for an empty read) and the clock. */
  datatype Probe = Probe(peak: Option<nat>, elapsed: real)

  /** The amplitude and clock reading of each read, in order. */
  function Probes(rs: seq<Reading>): (ps: seq<Probe>)
    ensures |ps| == |rs|
    ensures forall i :: 0 <= i < |rs| ==> ps[i] == Probe(Amplitude(rs[i].data), rs[i].elapsed)
  {
    seq(|rs|, i requires 0 <= i < |rs| => Probe(Amplitude(rs[i].data), rs[i].elapsed))
  }

  /** A read whose amplitude is strictly below the threshold. */
  predicate Quiet(p: Probe, threshold: int) {
    p.peak.Some? && p.peak.value < threshold
  }

  /**
   * The silence counter after the first `n` reads: the length of the longest
   * run of quiet reads that ends with read `n - 1`.
   */
  function QuietRun(ps: seq<Probe>, n: nat, threshold: int): (k: nat)
    requires n <= |ps|
    ensures k <= n
    ensures forall j :: n - k <= j < n ==> Quiet(ps[j], threshold)
    ensures k < n ==> !Quiet(ps[n - k - 1], threshold)
  {
    if n == 0 then 0
    else if Quiet(ps[n - 1], threshold) then QuietRun(ps, n - 1, threshold) + 1
    else 0
  }

  /** The two break conditions checked after read `n`, silence first, then the clock. */
  predicate StopsAfter(ps: seq<Probe>, n: nat, threshold: int, bound: int, maxDuration: real)
    requires 1 <= n <= |ps|
  {
    QuietRun(ps, n, threshold) >= bound || ps[n - 1].elapsed > maxDuration
  }

  /** No break condition held after any of the first `n` reads. */
  predicate RunsThrough(ps: seq<Probe>, n: nat, threshold: int, bound: int, maxDuration: real)
    requires n <= |ps|
  {
    forall j :: 1 <= j <= n ==> !StopsAfter(ps, j, threshold, bound, maxDuration)
  }

  /** Each of the first `n` reads returned bytes, so its amplitude exists. */
  predicate Readable(ps: seq<Probe>, n: nat)
    requires n <= |ps|
  {
    forall j :: 0 <= j < n ==> ps[j].peak.Some?
  }

  /**
   * The loop of `record_until_silence` resumed after `i` reads with the
   * counter at `count`: read, update the counter, break on silence, then
   * break on the clock.
   */
  function ScanFrom(ps: seq<Probe>, threshold: int, bound: int, maxDuration: real, i: nat, count: nat)
    : (r: Result<Stop, CaptureError>)
    requires i <= |ps| && Readable(ps, i)
    requires count == QuietRun(ps, i, threshold)
    requires RunsThrough(ps, i, threshold, bound, maxDuration)
    ensures r.Success? ==>
      && i < r.value.used <= |ps|
      && Readable(ps, r.value.used)
      && RunsThrough(ps, r.value.used - 1, threshold, bound, maxDuration)
      && StopsAfter(ps, r.value.used, threshold, bound, maxDuration)
      && (r.value.reason == SilenceDetected <==> QuietRun(ps, r.value.used, threshold) >= bound)
    ensures r == Failure(EmptyChunk) ==>
      exists k :: i <= k < |ps| && ps[k].peak.None? && Readable(ps, k)
                  && RunsThrough(ps, k, threshold, bound, maxDuration)
    ensures r == Failure(StreamEnded) ==>
      Readable(ps, |ps|) && RunsThrough(ps, |ps|, threshold, bound, maxDuration)
    decreases |ps| - i
  {
    if i == |ps| then Failure(StreamEnded)
    else
      match ps[i].peak
      case None => Failure(EmptyChunk)
      case Some(amplitude) =>
        var count' := if amplitude < threshold then count + 1 else 0;
        ScanStep(ps, threshold, bound, maxDuration, i, count);
        if count' >= bound then Success(Stop(i + 1, SilenceDetected))
        else if ps[i].elapsed > maxDuration then Success(Stop(i + 1, MaxDurationReached))
        else ScanFrom(ps, threshold, bound, maxDuration, i + 1, count')
  }

  /** After one more readable read the counter and the loop's history extend by that read. */
  lemma ScanStep(ps: seq<Probe>, threshold: int, bound: int, maxDuration: real, i: nat, count: nat)
    requires i < |ps| && Readable(ps, i) && ps[i].peak.Some?
    requires count == QuietRun(ps, i, threshold)
    requires RunsThrough(ps, i, threshold, bound, maxDuration)
    ensures Readable(ps, i + 1)
    ensures (if ps[i].peak.value < threshold then count + 1 else 0) == QuietRun(ps, i + 1, threshold)
    ensures !StopsAfter(ps, i + 1, threshold, bound, maxDuration) ==> RunsThrough(ps, i + 1, threshold, bound, maxDuration)
  {
  }

  /**
   * The reads `record_until_silence` consumes: it stops after the first read
   * at which either break condition holds, and never before one read.
   */
  function UntilSilence(ps: seq<Probe>, threshold: int, bound: int, maxDuration: real)
    : (r: Result<Stop, CaptureError>)
    ensures r.Success? ==>
      && 1 <= r.value.used <= |ps|
      && Readable(ps, r.value.used)
      && RunsThrough(ps, r.value.used - 1, threshold, bound, maxDuration)
      && StopsAfter(ps, r.value.used, threshold, bound, maxDuration)
      && (r.value.reason == SilenceDetected <==> QuietRun(ps, r.value.used, threshold) >= bound)
    ensures r == Failure(EmptyChunk) ==>
      exists k :: 0 <= k < |ps| && ps[k].peak.None? && Readable(ps, k)
                  && RunsThrough(ps, k, threshold, bound, maxDuration)
    ensures r == Failure(StreamEnded) ==>
      Readable(ps, |ps|) && RunsThrough(ps, |ps|, threshold, bound, maxDuration)
  {
    ScanFrom(ps, threshold, bound, maxDuration, 0, 0)
  }

  /**
   * Whatever the amplitudes, capture ends no later than the first read after
   * which the clock is past `maxDuration`.
   */
  lemma StopsByDeadline(ps: seq<Probe>, threshold: int, bound: int, maxDuration: real, k: nat)
    requires k < |ps| && ps[k].elapsed > maxDuration && Readable(ps, k + 1)
    ensures UntilSilence(ps, threshold, bound, maxDuration).Success?
    ensures UntilSilence(ps, threshold, bound, maxDuration).value.used <= k + 1
  {
    ScanStopsBy(ps, threshold, bound, maxDuration, 0, 0, k);
  }

  lemma {:induction false} ScanStopsBy(ps: seq<Probe>, threshold: int, bound: int, maxDuration: real,
                                       i: nat, count: nat, k: nat)
    requires i <= k < |ps| && ps[k].elapsed > maxDuration && Readable(ps, k + 1)
    requires count == QuietRun(ps, i, threshold)
    requires RunsThrough(ps, i, threshold, bound, maxDuration)
    ensures ScanFrom(ps, threshold, bound, maxDuration, i, count).Success?
    ensures ScanFrom(ps, threshold, bound, maxDuration, i, count).value.used <= k + 1
    decreases k - i
  {
    var amplitude := ps[i].peak.value;
    var count' := if amplitude < threshold then count + 1 else 0;
    ScanStep(ps, threshold, bound, maxDuration, i, count);
    if count' < bound && ps[i].elapsed <= maxDuration {
      assert i < k;
      ScanStopsBy(ps, threshold, bound, maxDuration, i + 1, count', k);
    }
  }

  /** With a silence bound of zero or less, capture stops after the first read. */
  lemma ZeroBoundStopsAtOnce(ps: seq<Probe>, threshold: int, bound: int, maxDuration: real)
    requires |ps| >= 1 && ps[0].peak.Some? && bound <= 0
    ensures UntilSilence(ps, threshold, bound, maxDuration) == Success(Stop(1, SilenceDetected))
  {
  }

  /** A read whose amplitude equals the threshold counts as sound and resets the counter. */
  lemma ThresholdIsSound(ps: seq<Probe>, n: nat, threshold: int)
    requires 1 <= n <= |ps| && ps[n - 1].peak == Some(threshold)
    ensures QuietRun(ps, n, threshold) == 0
  {
  }

  /** `int(silence_duration * rate / chunk)`: the consecutive quiet reads that end a capture. */
  function SilenceChunks(silenceDuration: real): int {
    Trunc(silenceDuration * RATE as real / CHUNK as real)
  }

  /** 1.5 seconds of silence at 44.1 kHz in 1024-frame reads is 64 reads. */
  lemma CliSilenceBound()
    ensures SilenceChunks(1.5) == 64
  {
  }

  /** The bytes of each read, in order. */
  function Frames(rs: seq<Reading>): (fs: seq<Bytes>)
    ensures |fs| == |rs| && forall i :: 0 <= i < |rs| ==> fs[i] == rs[i].data
  {
    seq(|rs|, i requires 0 <= i < |rs| => rs[i].data)
  }

  /** A saved recording: where it went, what was written and how many reads it took. */
  datatype Recording = Recording(path: string, wav: Wav, used: nat)

  /** `_save_audio`: mono, 16-bit, 44.1 kHz, the reads joined in order. */
  function SaveAudio(rs: seq<Reading>): (w: Wav)
    ensures w.channels == 1 && w.sampleWidth == 2 && w.frameRate == 44100
    ensures w.frames == Flatten(Frames(rs))
  {
    Wav(CHANNELS, SAMPLE_WIDTH, RATE, Flatten(Frames(rs)))
  }

  /** The output path: the given file name, else `recording_<timestamp>.wav`, under `dir`. */
  function RecordingPath(dir: string, filename: Option<string>, stamp: string): string {
    Text.JoinPath(dir, filename.GetOr("recording_" + stamp + ".wav"))
  }

  /** Without a file name the recording lands at `<dir>/recording_<timestamp>.wav`. */
  lemma DefaultRecordingPath(dir: string, stamp: string)
    requires dir != [] && dir[|dir| - 1] != '/'
    ensures RecordingPath(dir, None, stamp) == dir + "/recording_" + stamp + ".wav"
  {
    var name := "recording_" + stamp + ".wav";
    assert name[0] == 'r';
  }

  /**
   * `record(duration, filename)`: exactly `int(rate / chunk * duration)`
   * reads, all of them saved.
   */
  function Record(dir: string, stamp: string, duration: int, filename: Option<string>, rs: seq<Reading>)
    : (r: Result<Recording, CaptureError>)
    ensures r.Success? <==> FixedChunkCount(RATE, CHUNK, duration) <= |rs|
    ensures r.Failure? ==> r.error == StreamEnded
    ensures r.Success? ==>
      && r.value.used == FixedChunkCount(RATE, CHUNK, duration)
      && r.value.path == RecordingPath(dir, filename, stamp)
      && r.value.wav == SaveAudio(rs[..r.value.used])
  {
    var n := FixedChunkCount(RATE, CHUNK, duration);
    if n <= |rs| then Success(Recording(RecordingPath(dir, filename, stamp), SaveAudio(rs[..n]), n))
    else Failure(StreamEnded)
  }

  /**
   * `record_until_silence(threshold, silence_duration, max_duration,
   * filename)`: the reads up to and including the one after which a break
   * condition holds, trailing quiet reads included, all saved.
   */
  function RecordUntilSilence(dir: string, stamp: string, threshold: int, silenceDuration: real,
                              maxDuration: real, filename: Option<string>, rs: seq<Reading>)
    : (r: Result<Recording, CaptureError>)
    ensures r.Success? <==> UntilSilence(Probes(rs), threshold, SilenceChunks(silenceDuration), maxDuration).Success?
    ensures r.Success? ==>
      && r.value.used == UntilSilence(Probes(rs), threshold, SilenceChunks(silenceDuration), maxDuration).value.used
      && r.value.path == RecordingPath(dir, filename, stamp)
      && r.value.wav == SaveAudio(rs[..r.value.used])
  {
    match UntilSilence(Probes(rs), threshold, SilenceChunks(silenceDuration), maxDuration)
    case Failure(e) => Failure(e)
    case Success(stop) =>
      Success(Recording(RecordingPath(dir, filename, stamp), SaveAudio(rs[..stop.used]), stop.used))
  }

  /** Reads of `chunk` 16-bit frames each give a file of that many frames per read. */
  lemma RecordedFrameCount(rs: seq<Reading>, n: nat)
    requires n <= |rs|
    requires forall i :: 0 <= i < n ==> |rs[i].data| == 2 * CHUNK
    ensures |SaveAudio(rs[..n]).frames| == n * 2 * CHUNK
  {
    FlattenUniform(Frames(rs[..n]), 2 * CHUNK);
  }
}

=== FILE: cli.dfy ===
/**
 * The interactive front end of translator_by_speech/cli.py: a session
 * holding the language pair and which models have been loaded, the
 * commands that act on it, the output file names, and the read-eval loop.
 *
 * The world a command acts on is the session plus the file system; the
 * microphone and the clock reach a command as a `Device`, and the models as
 * `Models`.
 */
module Cli {
  import opened Wrappers
  import opened Text
  import opened Pcm
  import opened Files
  import Capture
  import opened Pipeline

  const RECORDINGS_DIR: string := "recordings"
  const TRANSCRIPTS_DIR: string := "transcripts"

  /** The recogniser the CLI loads. */
  const CLI_ASR: AsrModel := AsrModel("suzii/vi-whisper-large-v3-turbo-v1")

  /** Which of the lazily built models exist. */
  datatype Loaded = Loaded(asr: bool, vi2en: bool, en2vi: bool, vi2enPipeline: bool, en2viPipeline: bool)

  const NOTHING_LOADED: Loaded := Loaded(false, false, false, false, false)

  /** A built pipeline holds the recogniser and the translator it was built from. */
  predicate Consistent(l: Loaded) {
    && (l.vi2enPipeline ==> l.asr && l.vi2en)
    && (l.en2viPipeline ==> l.asr && l.en2vi)
  }

  /** Loading only ever adds models. */
  predicate Grows(l: Loaded, l': Loaded) {
    && (l.asr ==> l'.asr)
    && (l.vi2en ==> l'.vi2en)
    && (l.en2vi ==> l'.en2vi)
    && (l.vi2enPipeline ==> l'.vi2enPipeline)
    && (l.en2viPipeline ==> l'.en2viPipeline)
  }

  datatype Session = Session(sourceLang: string, targetLang: string, loaded: Loaded)

  /** A fresh `TranslationCLI()`: vi to en, nothing loaded. */
  const INITIAL: Session := Session("vi", "en", NOTHING_LOADED)

  predicate Supported(code: string) {
    code == "en" || code == "vi"
  }

  predicate ValidLanguages(s: Session) {
    Supported(s.sourceLang) && Supported(s.targetLang)
  }

  /** What every reachable session satisfies. */
  predicate Good(s: Session) {
    ValidLanguages(s) && Consistent(s.loaded)
  }

  /** A step that keeps the language pair and only loads models, keeping them consistent. */
  predicate Advances(s: Session, s': Session) {
    && s'.sourceLang == s.sourceLang && s'.targetLang == s.targetLang
    && Grows(s.loaded, s'.loaded)
    && (Consistent(s.loaded) ==> Consistent(s'.loaded))
  }

  lemma InitialIsGood()
    ensures Good(INITIAL)
  {
  }

  datatype World = World(session: Session, fs: FileSystem)

  /** What a command reads from the environment: the microphone's readings and the clock's timestamp. */
  datatype Device = Device(mic: seq<Capture.Reading>, stamp: string)

  // ---------------------------------------------------------------------
  // Lazy properties
  // ---------------------------------------------------------------------

  function LoadAsr(l: Loaded): Loaded {
    l.(asr := true)
  }

  function LoadVi2En(l: Loaded): Loaded {
    l.(vi2en := true)
  }

  function LoadEn2Vi(l: Loaded): Loaded {
    l.(en2vi := true)
  }

  /** `vi2en_pipeline`: built once, from the recogniser and the vi-to-en translator. */
  function LoadVi2EnPipeline(l: Loaded): Loaded {
    if l.vi2enPipeline then l else LoadVi2En(LoadAsr(l)).(vi2enPipeline := true)
  }

  /** `en2vi_pipeline`: built once, from the recogniser and the en-to-vi translator. */
  function LoadEn2ViPipeline(l: Loaded): Loaded {
    if l.en2viPipeline then l else LoadEn2Vi(LoadAsr(l)).(en2viPipeline := true)
  }

  const VI2EN_PIPELINE: SpeechPipeline := SpeechPipeline(CLI_ASR, VI2EN, "vi", "en_XX")
  const EN2VI_PIPELINE: SpeechPipeline := SpeechPipeline(CLI_ASR, EN2VI, "en", "vi_VN")

  /**
   * The CLI's pipelines are what the pipeline constructor builds from the
   * CLI's models, and the translators it supplies are the ones the
   * constructor would pick itself for the same pairs.
   */
  lemma CliPipelinesAreDefaults()
    ensures NewPipeline(Some(CLI_ASR), Some(VI2EN), "vi", "en_XX") == Success(VI2EN_PIPELINE)
    ensures NewPipeline(Some(CLI_ASR), Some(EN2VI), "en", "vi_VN") == Success(EN2VI_PIPELINE)
    ensures NewPipeline(None, None, "vi", "en_XX") == Success(VI2EN_PIPELINE)
    ensures NewPipeline(None, None, "en", "vi_VN") == Success(EN2VI_PIPELINE)
  {
  }

  // ---------------------------------------------------------------------
  // Languages
  // ---------------------------------------------------------------------

  /** `switch_languages()`: source and target trade places. */
  function SwitchLanguages(s: Session): (s': Session)
    ensures s'.sourceLang == s.targetLang && s'.targetLang == s.sourceLang
    ensures s'.loaded == s.loaded
  {
    s.(sourceLang := s.targetLang, targetLang := s.sourceLang)
  }

  /** Switching twice restores the session. */
  lemma SwitchTwice(s: Session)
    ensures SwitchLanguages(SwitchLanguages(s)) == s
  {
  }

  /**
   * `set_languages(source, target)`: both codes are committed when each is
   * "en" or "vi", and neither otherwise. Equal codes are accepted.
   */
  function SetLanguages(s: Session, source: string, target: string): (s': Session)
    ensures Supported(source) && Supported(target) ==>
      s'.sourceLang == source && s'.targetLang == target && s'.loaded == s.loaded
    ensures !(Supported(source) && Supported(target)) ==> s' == s
  {
    if !Supported(source) || !Supported(target) then s
    else s.(sourceLang := source, targetLang := target)
  }

  /** Setting a pair never produces one half of it: both codes change together or the session stays. */
  lemma SetLanguagesAllOrNothing(s: Session, source: string, target: string)
    ensures var s' := SetLanguages(s, source, target);
      (s'.sourceLang == source && s'.targetLang == target) || s' == s
    ensures Good(s) ==> Good(SetLanguages(s, source, target))
  {
  }

  // ---------------------------------------------------------------------
  // Routing
  // ---------------------------------------------------------------------

  /** The translation direction a language pair selects; only vi to en and en to vi have one. */
  function Route(sourceLang: string, targetLang: string): (t: Option<Translator>)
    ensures t == Some(VI2EN) <==> sourceLang == "vi" && targetLang == "en"
    ensures t == Some(EN2VI) <==> sourceLang == "en" && targetLang == "vi"
    ensures t.Some? ==> t == Some(VI2EN) || t == Some(EN2VI)
  {
    if sourceLang == "vi" && targetLang == "en" then Some(VI2EN)
    else if sourceLang == "en" && targetLang == "vi" then Some(EN2VI)
    else None
  }

  /** In a good session the pair has a direction exactly when source and target differ. */
  lemma RouteOfGoodSession(s: Session)
    requires Good(s)
    ensures Route(s.sourceLang, s.targetLang).Some? <==> s.sourceLang != s.targetLang
  {
  }

  /** Loading the translator of a direction. */
  function LoadTranslator(l: Loaded, t: Translator): Loaded {
    if t == VI2EN then LoadVi2En(l) else LoadEn2Vi(l)
  }

  /** Loading the pipeline of a direction. */
  function LoadPipeline(l: Loaded, t: Translator): Loaded {
    if t == VI2EN then LoadVi2EnPipeline(l) else LoadEn2ViPipeline(l)
  }

  function PipelineFor(t: Translator): SpeechPipeline {
    if t == VI2EN then VI2EN_PIPELINE else EN2VI_PIPELINE
  }

  /** The pipeline of a direction carries that direction's translator and its language codes. */
  lemma PipelineForDirection(sourceLang: string, targetLang: string)
    requires Route(sourceLang, targetLang).Some?
    ensures var p := PipelineFor(Route(sourceLang, targetLang).value);
      && p.translator == Route(sourceLang, targetLang).value
      && p.asr == CLI_ASR
      && p.sourceLang == sourceLang
      && p.targetLang == p.translator.tgtLang
  {
  }

  // ---------------------------------------------------------------------
  // translate_text
  // ---------------------------------------------------------------------

  /**
   * `translate_text(text)`: the routed translator's output, "" when it
   * raises, and "" without loading anything for a pair without a direction.
   */
  function TranslateText(s: Session, m: Models, text: string): (r: (string, Session))
    ensures Advances(s, r.1)
    ensures Route(s.sourceLang, s.targetLang).None? ==> r == ("", s)
    ensures Route(s.sourceLang, s.targetLang).Some? ==>
      var t := Route(s.sourceLang, s.targetLang).value;
      && r.1.loaded == LoadTranslator(s.loaded, t)
      && (m.translate(t, text).Some? ==> r.0 == m.translate(t, text).value)
      && (m.translate(t, text).None? ==> r.0 == "")
  {
    match Route(s.sourceLang, s.targetLang)
    case None => ("", s)
    case Some(t) =>
      var s' := s.(loaded := LoadTranslator(s.loaded, t));
      (m.translate(t, text).GetOr(""), s')
  }

  /**
   * Only the routed translator is consulted: two model sets that agree on
   * it give the same outcome, and a pair without a direction gives the same
   * outcome for every model set.
   */
  lemma TranslateTextUsesOnlyRoute(s: Session, m1: Models, m2: Models, text: string)
    requires Route(s.sourceLang, s.targetLang).Some? ==>
      var t := Route(s.sourceLang, s.targetLang).value;
      m1.translate(t, text) == m2.translate(t, text)
    ensures TranslateText(s, m1, text) == TranslateText(s, m2, text)
  {
  }

  // ---------------------------------------------------------------------
  // Output file names
  // ---------------------------------------------------------------------

  /** Where `transcribe_audio` writes: the base name with every ".wav" made ".txt", under transcripts. */
  function TranscriptPath(path: string): (r: string)
    ensures r == TRANSCRIPTS_DIR + "/" + ReplaceAll(Basename(path), ".wav", ".txt")
  {
    ReplaceKeepsOut(Basename(path), ".wav", ".txt", '/');
    UnderTranscripts(ReplaceAll(Basename(path), ".wav", ".txt"))
  }

  /** The stem `process_audio_file` names its outputs after: the base name with every ".wav" removed. */
  function ProcessStem(path: string): (r: string)
    ensures '/' !in r
  {
    ReplaceKeepsOut(Basename(path), ".wav", "", '/');
    ReplaceAll(Basename(path), ".wav", "")
  }

  lemma JoinNoSlash(name: string)
    requires '/' !in name
    ensures JoinPath(TRANSCRIPTS_DIR, name) == TRANSCRIPTS_DIR + "/" + name
  {
    if |name| > 0 {
      assert name[0] in name;
    }
  }

  /** `os.path.join("transcripts", name)` for a plain file name. */
  function UnderTranscripts(name: string): (r: string)
    requires '/' !in name
    ensures r == TRANSCRIPTS_DIR + "/" + name
  {
    JoinNoSlash(name);
    JoinPath(TRANSCRIPTS_DIR, name)
  }

  lemma PlainOutputNames(stem: string)
    requires '/' !in stem
    ensures '/' !in stem + "_transcript.txt" && '/' !in stem + "_translation.txt"
  {
    var transcript := "_transcript.txt";
    var translation := "_translation.txt";
    assert forall i :: 0 <= i < |transcript| ==> transcript[i] != '/';
    assert forall i :: 0 <= i < |translation| ==> translation[i] != '/';
  }

  function ProcessTranscriptPath(path: string): string {
    PlainOutputNames(ProcessStem(path));
    UnderTranscripts(ProcessStem(path) + "_transcript.txt")
  }

  function ProcessTranslationPath(path: string): string {
    PlainOutputNames(ProcessStem(path));
    UnderTranscripts(ProcessStem(path) + "_translation.txt")
  }

  /** The two outputs of processing are distinct files, so the translation never overwrites the transcript. */
  lemma ProcessPathsDistinct(path: string)
    ensures ProcessTranscriptPath(path) != ProcessTranslationPath(path)
  {
    var stem := ProcessStem(path);
    assert |ProcessTranscriptPath(path)| == |TRANSCRIPTS_DIR| + 1 + |stem| + 15;
    assert |ProcessTranslationPath(path)| == |TRANSCRIPTS_DIR| + 1 + |stem| + 16;
  }

  /** The base name of `<dir>/<stem>.wav`, for a stem free of '/', is `<stem>.wav`. */
  lemma WavBasename(dir: string, stem: string)
    requires dir != [] && dir[|dir| - 1] != '/'
    requires '/' !in stem
    ensures Basename(JoinPath(dir, stem + ".wav")) == stem + ".wav"
  {
    var name := stem + ".wav";
    assert '/' !in name by {
      assert forall i :: 0 <= i < |name| ==> name[i] == (if i < |stem| then stem[i] else ".wav"[i - |stem|]);
    }
    BasenameOfJoin(dir, name);
  }

  lemma TranscriptsPrefix()
    ensures TRANSCRIPTS_DIR + "/" == "transcripts/"
  {
  }

  /** Transcribing `<dir>/<stem>.wav` writes `transcripts/<stem>.txt`. */
  lemma TranscriptName(dir: string, stem: string)
    requires dir != [] && dir[|dir| - 1] != '/'
    requires '/' !in stem && '.' !in stem
    ensures TranscriptPath(JoinPath(dir, stem + ".wav")) == "transcripts/" + stem + ".txt"
  {
    var name := stem + ".wav";
    WavBasename(dir, stem);
    assert Basename(JoinPath(dir, name)) == name;
    DotFreeStem(stem, ".wav");
    ReplaceFinal(stem, ".wav", ".txt");
    assert ReplaceAll(name, ".wav", ".txt") == stem + ".txt";
    assert TranscriptPath(JoinPath(dir, name)) == TRANSCRIPTS_DIR + "/" + (stem + ".txt");
    TranscriptsPrefix();
    assert "transcripts/" + stem + ".txt" == "transcripts/" + (stem + ".txt");
  }

  /** Processing `<dir>/<stem>.wav` names its outputs after `<stem>`. */
  lemma ProcessStemOfWav(dir: string, stem: string)
    requires dir != [] && dir[|dir| - 1] != '/'
    requires '/' !in stem && '.' !in stem
    ensures ProcessStem(JoinPath(dir, stem + ".wav")) == stem
  {
    WavBasename(dir, stem);
    DotFreeStem(stem, ".wav");
    ReplaceFinal(stem, ".wav", "");
    assert stem + "" == stem;
  }

  /** Processing `<dir>/<stem>.wav` writes `transcripts/<stem>_transcript.txt`. */
  lemma ProcessTranscriptName(dir: string, stem: string)
    requires dir != [] && dir[|dir| - 1] != '/'
    requires '/' !in stem && '.' !in stem
    ensures ProcessTranscriptPath(JoinPath(dir, stem + ".wav")) == "transcripts/" + stem + "_transcript.txt"
  {
    ProcessStemOfWav(dir, stem);
    TranscriptsPrefix();
    assert "transcripts/" + stem + "_transcript.txt" == "transcripts/" + (stem + "_transcript.txt");
  }

  /** Processing `<dir>/<stem>.wav` writes its translation to `transcripts/<stem>_translation.txt`. */
  lemma ProcessTranslationName(dir: string, stem: string)
    requires dir != [] && dir[|dir| - 1] != '/'
    requires '/' !in stem && '.' !in stem
    ensures ProcessTranslationPath(JoinPath(dir, stem + ".wav")) == "transcripts/" + stem + "_translation.txt"
  {
    ProcessStemOfWav(dir, stem);
    TranscriptsPrefix();
    assert "transcripts/" + stem + "_translation.txt" == "transcripts/" + (stem + "_translation.txt");
  }

  /**
   * For `<dir>/<stem>.wav` with a stem free of '.' and '/', transcription
   * writes `transcripts/<stem>.txt` and processing writes
   * `transcripts/<stem>_transcript.txt` and `transcripts/<stem>_translation.txt`.
   */
  lemma OutputNames(dir: string, stem: string)
    requires dir != [] && dir[|dir| - 1] != '/'
    requires '/' !in stem && '.' !in stem
    ensures TranscriptPath(JoinPath(dir, stem + ".wav")) == "transcripts/" + stem + ".txt"
    ensures ProcessTranscriptPath(JoinPath(dir, stem + ".wav")) == "transcripts/" + stem + "_transcript.txt"
    ensures ProcessTranslationPath(JoinPath(dir, stem + ".wav")) == "transcripts/" + stem + "_translation.txt"
  {
    TranscriptName(dir, stem);
    ProcessTranscriptName(dir, stem);
    ProcessTranslationName(dir, stem);
  }

  /** A timestamp as `strftime("%Y%m%d_%H%M%S")` prints it: digits and underscores. */
  predicate StampLike(stamp: string) {
    forall i :: 0 <= i < |stamp| ==> IsDigit(stamp[i]) || stamp[i] == '_'
  }

  /** The recording the CLI makes is processed into `transcripts/recording_<timestamp>_transcript.txt` and its translation twin. */
  lemma RecordingOutputNames(stamp: string)
    requires StampLike(stamp)
    ensures var path := Capture.RecordingPath(RECORDINGS_DIR, None, stamp);
      && path == "recordings/recording_" + stamp + ".wav"
      && ProcessTranscriptPath(path) == "transcripts/recording_" + stamp + "_transcript.txt"
      && ProcessTranslationPath(path) == "transcripts/recording_" + stamp + "_translation.txt"
  {
    RecordingFileIsDefault(stamp);
    var stem := "recording_" + stamp;
    RecordingStemPlain(stamp);
    ProcessTranscriptName(RECORDINGS_DIR, stem);
    ProcessTranslationName(RECORDINGS_DIR, stem);
    assert "transcripts/" + stem == "transcripts/recording_" + stamp;
  }

  lemma RecordingStemPlain(stamp: string)
    requires StampLike(stamp)
    ensures '/' !in "recording_" + stamp && '.' !in "recording_" + stamp
  {
    var prefix := "recording_";
    assert forall i :: 0 <= i < |prefix| ==> prefix[i] != '/' && prefix[i] != '.';
    assert forall i :: 0 <= i < |stamp| ==> stamp[i] != '/' && stamp[i] != '.';
  }

  // ---------------------------------------------------------------------
  // transcribe_audio, process_audio_file, record_audio
  // ---------------------------------------------------------------------

  /**
   * `transcribe_audio(path)`: recognise the file in the source language and
   * write the text to its transcript path. When recognition raises, or the
   * base name is empty so that the transcript path is the transcripts
   * directory itself, the text is "" and nothing is written.
   */
  function TranscribeAudio(w: World, m: Models, path: string): (r: (string, World))
    ensures r.1.session == w.session.(loaded := LoadAsr(w.session.loaded))
    ensures Advances(w.session, r.1.session)
    ensures var text := TranscribeFile(m, CLI_ASR, w.fs, path, w.session.sourceLang);
      if text.Some? && Basename(path) != [] then
        && r.0 == text.value
        && r.1.fs == w.fs[TranscriptPath(path) := TextFile(text.value)]
      else
        r.0 == "" && r.1.fs == w.fs
  {
    var w1 := w.(session := w.session.(loaded := LoadAsr(w.session.loaded)));
    match TranscribeFile(m, CLI_ASR, w.fs, path, w.session.sourceLang)
    case None => ("", w1)
    case Some(text) =>
      if Basename(path) == [] then ("", w1)
      else (text, w1.(fs := w.fs[TranscriptPath(path) := TextFile(text)]))
  }

  /**
   * `process_audio_file(path)`: a missing file or a pair without a
   * direction returns nothing before any pipeline is built; otherwise the
   * direction's pipeline runs and, when it succeeds, the recognised text
   * and its translation are written next to each other under transcripts.
   */
  function ProcessAudioFile(w: World, m: Models, path: string): (r: (Option<PipelineResult>, World))
    ensures Advances(w.session, r.1.session)
    ensures path !in w.fs || Route(w.session.sourceLang, w.session.targetLang).None? ==>
      r == (None, w)
    ensures path in w.fs && Route(w.session.sourceLang, w.session.targetLang).Some? ==>
      var t := Route(w.session.sourceLang, w.session.targetLang).value;
      && r.1.session.loaded == LoadPipeline(w.session.loaded, t)
      && r.0 == TranslateSpeechFromFile(PipelineFor(t), m, w.fs, path)
    ensures r.0.None? ==> r.1.fs == w.fs
    ensures r.0.Some? ==>
      var transcript := ProcessTranscriptPath(path);
      var translation := ProcessTranslationPath(path);
      && r.1.fs.Keys == w.fs.Keys + {transcript, translation}
      && r.1.fs[transcript] == TextFile(r.0.value.sourceText)
      && r.1.fs[translation] == TextFile(r.0.value.translatedText)
      && (forall p :: p in w.fs && p != transcript && p != translation ==> r.1.fs[p] == w.fs[p])
  {
    if path !in w.fs then (None, w)
    else
      match Route(w.session.sourceLang, w.session.targetLang)
      case None => (None, w)
      case Some(t) =>
        var w1 := w.(session := w.session.(loaded := LoadPipeline(w.session.loaded, t)));
        match TranslateSpeechFromFile(PipelineFor(t), m, w.fs, path)
        case None => (None, w1)
        case Some(result) =>
          ProcessPathsDistinct(path);
          var fs' := WriteOutputs(w.fs, ProcessTranscriptPath(path), ProcessTranslationPath(path), result);
          (Some(result), w1.(fs := fs'))
  }

  /** The two text files processing writes: the recognised text and its translation. */
  function WriteOutputs(fs: FileSystem, transcript: string, translation: string, result: PipelineResult)
    : (fs': FileSystem)
    requires transcript != translation
    ensures fs'.Keys == fs.Keys + {transcript, translation}
    ensures fs'[transcript] == TextFile(result.sourceText)
    ensures fs'[translation] == TextFile(result.translatedText)
    ensures forall p :: p in fs && p != transcript && p != translation ==> fs'[p] == fs[p]
  {
    fs[transcript := TextFile(result.sourceText)][translation := TextFile(result.translatedText)]
  }

  /** The silence-detection settings `record_audio` uses. */
  const SILENCE_THRESHOLD: int := 500
  const SILENCE_DURATION: real := 1.5
  const MAX_DURATION: real := 60.0

  /** The fixed duration `record_audio` records for: the given one, with a missing or zero duration read as 5. */
  function EffectiveDuration(duration: Option<int>): (d: int)
    ensures d != 0
    ensures duration.Some? && duration.value != 0 ==> d == duration.value
    ensures duration.None? || duration == Some(0) ==> d == 5
  {
    if duration.Some? && duration.value != 0 then duration.value else 5
  }

  /** Where the CLI's recorder saves: `recordings/recording_<timestamp>.wav`. */
  function RecordingFile(stamp: string): string {
    "recordings/recording_" + stamp + ".wav"
  }

  lemma RecordingFileIsDefault(stamp: string)
    ensures Capture.RecordingPath(RECORDINGS_DIR, None, stamp) == RecordingFile(stamp)
  {
    Capture.DefaultRecordingPath(RECORDINGS_DIR, stamp);
    assert RECORDINGS_DIR + "/recording_" == "recordings/recording_";
  }

  /** The recorder's outcome, whichever of its two modes ran. */
  function CaptureOutcome(dev: Device, duration: Option<int>, silenceDetection: bool)
    : (r: Result<Capture.Recording, Capture.CaptureError>)
    ensures r.Success? ==> r.value.path == RecordingFile(dev.stamp)
  {
    RecordingFileIsDefault(dev.stamp);
    if silenceDetection && duration.None? then
      Capture.RecordUntilSilence(RECORDINGS_DIR, dev.stamp, SILENCE_THRESHOLD, SILENCE_DURATION,
                                 MAX_DURATION, None, dev.mic)
    else
      Capture.Record(RECORDINGS_DIR, dev.stamp, EffectiveDuration(duration), None, dev.mic)
  }

  /**
   * `record_audio(duration, silence_detection)`: the path of the saved
   * recording, or "" with nothing written when recording raises.
   */
  function RecordAudio(w: World, dev: Device, duration: Option<int>, silenceDetection: bool)
    : (r: (string, World))
    ensures r.1.session == w.session
    ensures r.0 == "" <==> CaptureOutcome(dev, duration, silenceDetection).Failure?
    ensures r.0 == "" ==> r.1 == w
    ensures r.0 != "" ==>
      && r.0 == RecordingFile(dev.stamp)
      && r.1.fs == w.fs[r.0 := AudioFile(CaptureOutcome(dev, duration, silenceDetection).value.wav)]
  {
    match CaptureOutcome(dev, duration, silenceDetection)
    case Failure(_) => ("", w)
    case Success(rec) => (rec.path, w.(fs := w.fs[rec.path := AudioFile(rec.wav)]))
  }

  /**
   * Without a duration, and with silence detection, the recording is the
   * reads up to the silence stop with threshold 500, 64 quiet reads and a
   * 60-second limit; otherwise it is the fixed-duration recording, where no
   * duration and a zero duration both mean five seconds, 215 reads.
   */
  lemma RecordAudioModes(w: World, dev: Device, duration: Option<int>, silenceDetection: bool)
    ensures silenceDetection && duration.None? ==>
      var stop := Capture.UntilSilence(Capture.Probes(dev.mic), 500, 64, 60.0);
      && (RecordAudio(w, dev, duration, silenceDetection).0 != "" <==> stop.Success?)
      && (stop.Success? ==>
            RecordAudio(w, dev, duration, silenceDetection).1.fs["recordings/recording_" + dev.stamp + ".wav"]
            == AudioFile(Capture.SaveAudio(dev.mic[..stop.value.used])))
    ensures !(silenceDetection && duration.None?) && (duration.None? || duration == Some(0)) ==>
      && RecordAudio(w, dev, duration, silenceDetection) == RecordAudio(w, dev, Some(5), silenceDetection)
      && (RecordAudio(w, dev, duration, silenceDetection).0 != "" <==> 215 <= |dev.mic|)
  {
    Capture.CliSilenceBound();
    Capture.DefaultRecordingChunks();
  }

  /** `record_and_process()`: record until silence, then process the recording unless recording failed. */
  function RecordAndProcess(w: World, m: Models, dev: Device): (r: (Option<PipelineResult>, World))
    ensures var (path, w1) := RecordAudio(w, dev, None, true);
      if path == "" then r == (None, w) else r == ProcessAudioFile(w1, m, path)
    ensures Advances(w.session, r.1.session)
  {
    var (path, w1) := RecordAudio(w, dev, None, true);
    if path == "" then (None, w1) else ProcessAudioFile(w1, m, path)
  }

  /**
   * A successful recording is always found by the processing step, so with a
   * direction selected the pipeline runs on the file just recorded.
   */
  lemma RecordedFileIsProcessed(w: World, m: Models, dev: Device)
    requires RecordAudio(w, dev, None, true).0 != ""
    requires Route(w.session.sourceLang, w.session.targetLang).Some?
    ensures var (path, w1) := RecordAudio(w, dev, None, true);
      var t := Route(w.session.sourceLang, w.session.targetLang).value;
      RecordAndProcess(w, m, dev).0 == TranslateSpeechFromFile(PipelineFor(t), m, w1.fs, path)
  {
  }

  // ---------------------------------------------------------------------
  // Commands
  // ---------------------------------------------------------------------

  datatype Command = Exit | Help | Status | Record | Transcribe | Translate | Process | Speak | Switch | Lang
                   | Unknown(name: string)

  const VOCABULARY: set<string> :=
    {"exit", "help", "status", "record", "transcribe", "translate", "process", "speak", "switch", "lang"}

  /** The word that names a command. */
  function CommandName(c: Command): string {
    match c
    case Exit => "exit"
    case Help => "help"
    case Status => "status"
    case Record => "record"
    case Transcribe => "transcribe"
    case Translate => "translate"
    case Process => "process"
    case Speak => "speak"
    case Switch => "switch"
    case Lang => "lang"
    case Unknown(name) => name
  }

  /** The command a word names: one of the ten, or unknown. */
  function ParseCommand(name: string): (c: Command)
    ensures c.Unknown? <==> name !in VOCABULARY
    ensures CommandName(c) == name
  {
    if name == "exit" then Exit
    else if name == "help" then Help
    else if name == "status" then Status
    else if name == "record" then Record
    else if name == "transcribe" then Transcribe
    else if name == "translate" then Translate
    else if name == "process" then Process
    else if name == "speak" then Speak
    else if name == "switch" then Switch
    else if name == "lang" then Lang
    else Unknown(name)
  }

  /** Every known command is parsed back from its name. */
  lemma ParseCommandName(c: Command)
    requires !c.Unknown?
    ensures CommandName(c) in VOCABULARY
    ensures ParseCommand(CommandName(c)) == c
  {
  }

  /** What a command shows the user. */
  datatype Report =
    | NoReport
    | HelpText(sourceLang: string, targetLang: string)
    | StatusText(sourceLang: string, targetLang: string, asrLoaded: bool, vi2enLoaded: bool, en2viLoaded: bool)
    | Recorded(path: string)
    | Transcription(text: string)
    | Translation(text: string)
    | Processed(sourceText: string, translatedText: string)
    | MissingArgument
    | UnknownCommand(name: string)
    | ErrorShown   // the loop's catch-all handler printing the exception
    | Cancelled    // the loop's keyboard-interrupt handler

  /**
   * The outcome of `handle_command`: whether the loop keeps running, the
   * new world and what was shown; `Raised` when the command raised to the
   * loop, which reports the error and carries on with the world unchanged.
   */
  datatype Handled = Handled(keepRunning: bool, world: World, report: Report) | Raised

  function ShowResult(r: Option<PipelineResult>): Report {
    if r.Some? then Processed(r.value.sourceText, r.value.translatedText) else NoReport
  }

  /** `handle_command` once the command word is known. */
  function Dispatch(w: World, m: Models, dev: Device, c: Command, args: seq<string>): (r: Handled)
    ensures r.Raised? <==> c.Record? && |args| > 0 && ParseInt(args[0]).None?
    ensures r.Handled? ==> (!r.keepRunning <==> c.Exit?)
    ensures r.Handled? && !c.Switch? && !c.Lang? ==> Advances(w.session, r.world.session)
    ensures r.Handled? && (c.Switch? || c.Lang?) ==>
      r.world.session.loaded == w.session.loaded && (ValidLanguages(w.session) ==> ValidLanguages(r.world.session))
    ensures r.Handled? && !(c.Record? || c.Transcribe? || c.Process? || c.Speak?) ==> r.world.fs == w.fs
    ensures c.Exit? ==> r == Handled(false, w, NoReport)
    ensures c.Unknown? ==> r == Handled(true, w, UnknownCommand(c.name))
    ensures ((c.Transcribe? || c.Translate? || c.Process?) && args == []) || (c.Lang? && |args| < 2) ==>
      r == Handled(true, w, MissingArgument)
    ensures c.Translate? && args != [] ==>
      r == Handled(true, w.(session := TranslateText(w.session, m, Join(args, " ")).1),
                   Translation(TranslateText(w.session, m, Join(args, " ")).0))
  {
    var s := w.session;
    match c
    case Exit => Handled(false, w, NoReport)
    case Help => Handled(true, w, HelpText(s.sourceLang, s.targetLang))
    case Status => Handled(true, w, StatusText(s.sourceLang, s.targetLang, s.loaded.asr, s.loaded.vi2en, s.loaded.en2vi))
    case Record =>
      if |args| > 0 && ParseInt(args[0]).None? then Raised
      else
        var duration := if |args| > 0 then ParseInt(args[0]) else None;
        var (path, w') := RecordAudio(w, dev, duration, true);
        Handled(true, w', Recorded(path))
    case Transcribe =>
      if args == [] then Handled(true, w, MissingArgument)
      else
        var (text, w') := TranscribeAudio(w, m, args[0]);
        Handled(true, w', Transcription(text))
    case Translate =>
      if args == [] then Handled(true, w, MissingArgument)
      else
        var (translation, s') := TranslateText(s, m, Join(args, " "));
        Handled(true, w.(session := s'), Translation(translation))
    case Process =>
      if args == [] then Handled(true, w, MissingArgument)
      else
        var (result, w') := ProcessAudioFile(w, m, args[0]);
        Handled(true, w', ShowResult(result))
    case Speak =>
      var (result, w') := RecordAndProcess(w, m, dev);
      Handled(true, w', ShowResult(result))
    case Switch => Handled(true, w.(session := SwitchLanguages(s)), NoReport)
    case Lang =>
      if |args| < 2 then Handled(true, w, MissingArgument)
      else Handled(true, w.(session := SetLanguages(s, args[0], args[1])), NoReport)
    case Unknown(name) => Handled(true, w, UnknownCommand(name))
  }

  /**
   * `handle_command(command, args)`: False only for exit; unknown commands
   * and missing arguments change nothing; only switch and lang touch the
   * language pair, and only record, transcribe, process and speak write
   * files.
   */
  function HandleCommand(w: World, m: Models, dev: Device, command: string, args: seq<string>)
    : (r: Handled)
    ensures r.Raised? <==> command == "record" && |args| > 0 && ParseInt(args[0]).None?
    ensures r.Handled? ==> (!r.keepRunning <==> command == "exit")
    ensures r.Handled? ==> Grows(w.session.loaded, r.world.session.loaded)
    ensures r.Handled? && Good(w.session) ==> Good(r.world.session)
    ensures r.Handled? && command != "switch" && command != "lang" ==>
      r.world.session.sourceLang == w.session.sourceLang && r.world.session.targetLang == w.session.targetLang
    ensures r.Handled? && !(command == "record" || command == "transcribe" || command == "process" || command == "speak")
            ==> r.world.fs == w.fs
    ensures command == "exit" ==> r == Handled(false, w, NoReport)
    ensures command !in VOCABULARY ==> r == Handled(true, w, UnknownCommand(command))
    ensures ((command == "transcribe" || command == "translate" || command == "process") && args == [])
            || (command == "lang" && |args| < 2) ==>
      r == Handled(true, w, MissingArgument)
    ensures command == "translate" && args != [] ==>
      r == Handled(true, w.(session := TranslateText(w.session, m, Join(args, " ")).1),
                   Translation(TranslateText(w.session, m, Join(args, " ")).0))
  {
    var c := ParseCommand(command);
    CommandNameInjective(c, command);
    Dispatch(w, m, dev, c, args)
  }

  /** The parsed command is the one its word names. */
  lemma CommandNameInjective(c: Command, command: string)
    requires c == ParseCommand(command)
    ensures c.Exit? <==> command == "exit"
    ensures c.Record? <==> command == "record"
    ensures c.Transcribe? <==> command == "transcribe"
    ensures c.Translate? <==> command == "translate"
    ensures c.Process? <==> command == "process"
    ensures c.Speak? <==> command == "speak"
    ensures c.Switch? <==> command == "switch"
    ensures c.Lang? <==> command == "lang"
    ensures c.Unknown? ==> c.name == command
  {
  }

  /** `translate` hands the translator its arguments joined by single spaces, a text that splits back into them. */
  lemma {:induction false} TranslateCommandText(w: World, m: Models, dev: Device, args: seq<string>)
    requires args != []
    requires forall i :: 0 <= i < |args| ==> IsToken(args[i])
    ensures var text := Join(args, " ");
      && Split(text) == args
      && HandleCommand(w, m, dev, "translate", args)
         == Handled(true, w.(session := TranslateText(w.session, m, text).1),
                    Translation(TranslateText(w.session, m, text).0))
  {
    SplitJoin(args);
  }

  // ---------------------------------------------------------------------
  // The loop
  // ---------------------------------------------------------------------

  /**
   * The input line as `run` reads it: `None` for a blank line, otherwise
   * the lower-cased first field and the remaining fields as they are.
   */
  function ParseLine(line: string): (r: Option<(string, seq<string>)>)
    ensures r.None? <==> AllSpace(line)
    ensures r.Some? ==> |Split(line)| > 0 && r.value == (Lower(Split(line)[0]), Split(line)[1..])
  {
    var t := Strip(line);
    StripEmpty(line);
    SplitStrip(line);
    SplitEmpty(t);
    if t == [] then None
    else
      var parts := Split(t);
      Some((Lower(parts[0]), parts[1..]))
  }

  /** A line typed as a command word and its arguments separated by single spaces parses back into them. */
  lemma {:induction false} ParseLineOfWords(words: seq<string>)
    requires |words| > 0
    requires forall i :: 0 <= i < |words| ==> IsToken(words[i])
    ensures ParseLine(Join(words, " ")) == Some((Lower(words[0]), words[1..]))
  {
    SplitJoin(words);
  }

  /**
   * One thing the loop can receive: a typed line, read with the device as it
   * is then, Ctrl-C, or the end of standard input (Ctrl-D, or a closed pipe).
   */
  datatype Event = Line(text: string, device: Device) | Interrupt | EndOfInput

  /** A line that the loop reads as the exit command. */
  predicate IsExitLine(e: Event) {
    e.Line? && ParseLine(e.text).Some? && ParseLine(e.text).value.0 == "exit"
  }

  /**
   * A typed command that raises inside the loop: `record` with an argument
   * that `int()` rejects, which the catch-all handler reports.
   */
  predicate RaisingLine(text: string) {
    ParseLine(text).Some? && ParseLine(text).value.0 == "record"
    && |ParseLine(text).value.1| > 0 && ParseInt(ParseLine(text).value.1[0]).None?
  }

  /** An event after which the loop stops: the exit command, or the end of input. */
  predicate EndsLoop(e: Event) {
    IsExitLine(e) || e.EndOfInput?
  }

  /** The effect of one event: the loop carries on, or stops. */
  datatype Step = Continue(world: World, shown: seq<Report>) | Stop(world: World, shown: seq<Report>)

  /**
   * One pass of `run`'s loop body: an interrupt, a blank line or a command
   * that raised leaves the world as it was, the first and last showing
   * their handler's message; any other line is handled. The end of input
   * stops the loop, which the code as written does not do (see
   * `StepAsWritten`).
   */
  function StepOf(w: World, m: Models, e: Event): (r: Step)
    ensures r.Stop? <==> EndsLoop(e)
    ensures Grows(w.session.loaded, r.world.session.loaded)
    ensures Good(w.session) ==> Good(r.world.session)
  {
    match e
    case Interrupt => Continue(w, [Cancelled])
    case EndOfInput => Stop(w, [])
    case Line(text, dev) => LineStep(w, m, text, dev)
  }

  /** One typed line: skipped when blank, otherwise handled as a command. */
  function LineStep(w: World, m: Models, text: string, dev: Device): (r: Step)
    ensures r.Stop? <==> IsExitLine(Line(text, dev))
    ensures AllSpace(text) ==> r == Continue(w, [])
    ensures RaisingLine(text) ==> r == Continue(w, [ErrorShown])
    ensures !AllSpace(text) && !RaisingLine(text) ==>
      var h := HandleCommand(w, m, dev, ParseLine(text).value.0, ParseLine(text).value.1);
      h.Handled? && r.world == h.world && r.shown == [h.report]
    ensures Grows(w.session.loaded, r.world.session.loaded)
    ensures Good(w.session) ==> Good(r.world.session)
  {
    match ParseLine(text)
    case None => Continue(w, [])
    case Some((command, args)) =>
      var h := HandleCommand(w, m, dev, command, args);
      assert h.Handled? ==> (!h.keepRunning <==> command == "exit");
      match h
      case Raised => Continue(w, [ErrorShown])
      case Handled(keepRunning, w', report) =>
        if keepRunning then Continue(w', [report]) else Stop(w', [report])
  }

  /** An exit line stops the loop with the world as it was and nothing shown. */
  lemma ExitStep(w: World, m: Models, e: Event)
    requires IsExitLine(e)
    ensures StepOf(w, m, e) == Stop(w, [NoReport])
  {
  }

  /** Where the loop got to: the world, whether it exited, and what it showed. */
  datatype RunResult = RunResult(world: World, exited: bool, reports: seq<Report>)

  /**
   * `run()` over a finite sequence of events: the loop ends at the first
   * command that returns False or at the end of input, so it exits exactly
   * when one of those comes.
   */
  function Run(w: World, m: Models, events: seq<Event>): (r: RunResult)
    ensures r.exited <==> exists k :: 0 <= k < |events| && EndsLoop(events[k])
    decreases |events|
  {
    if events == [] then RunResult(w, false, [])
    else
      match StepOf(w, m, events[0])
      case Stop(w', shown) => RunResult(w', true, shown)
      case Continue(w', shown) =>
        var r := Run(w', m, events[1..]);
        SomeInTail(events, EndsLoop);
        RunResult(r.world, r.exited, shown + r.reports)
  }

  /** Some element satisfies `p` exactly when the first does or some element of the rest does. */
  lemma SomeInTail<T>(xs: seq<T>, p: T -> bool)
    requires xs != [] && !p(xs[0])
    ensures (exists k :: 0 <= k < |xs| && p(xs[k])) <==> (exists k :: 0 <= k < |xs| - 1 && p(xs[1..][k]))
  {
    if exists k :: 0 <= k < |xs| && p(xs[k]) {
      var k :| 0 <= k < |xs| && p(xs[k]);
      assert xs[1..][k - 1] == xs[k];
    }
    if exists k :: 0 <= k < |xs| - 1 && p(xs[1..][k]) {
      var k :| 0 <= k < |xs| - 1 && p(xs[1..][k]);
      assert xs[k + 1] == xs[1..][k];
    }
  }


  /** The loop keeps every session good and only ever loads models. */
  lemma {:induction false} RunKeepsGood(w: World, m: Models, events: seq<Event>)
    requires Good(w.session)
    ensures Good(Run(w, m, events).world.session)
    ensures Grows(w.session.loaded, Run(w, m, events).world.session.loaded)
    decreases |events|
  {
    if events != [] {
      var step := StepOf(w, m, events[0]);
      if step.Continue? {
        RunKeepsGood(step.world, m, events[1..]);
      }
    }
  }

  lemma AppendAssoc(x: seq<Report>, y: seq<Report>, z: seq<Report>)
    ensures x + (y + z) == (x + y) + z
  {
  }

  /** Running two stretches of input one after the other is running them joined, until the loop exits. */
  lemma {:induction false} RunAppend(w: World, m: Models, a: seq<Event>, b: seq<Event>)
    requires !Run(w, m, a).exited
    ensures var ra := Run(w, m, a);
      var rb := Run(ra.world, m, b);
      Run(w, m, a + b) == RunResult(rb.world, rb.exited, ra.reports + rb.reports)
    decreases |a|
  {
    if a == [] {
      assert a + b == b;
    } else {
      assert (a + b)[0] == a[0];
      assert (a + b)[1..] == a[1..] + b;
      var step := StepOf(w, m, a[0]);
      assert step.Continue?;
      var r1 := Run(step.world, m, a[1..]);
      assert Run(w, m, a) == RunResult(r1.world, r1.exited, step.shown + r1.reports);
      RunAppend(step.world, m, a[1..], b);
      var rb := Run(r1.world, m, b);
      var rab := Run(step.world, m, a[1..] + b);
      assert rab == RunResult(rb.world, rb.exited, r1.reports + rb.reports);
      assert Run(w, m, a + b) == RunResult(rab.world, rab.exited, step.shown + rab.reports);
      var x, y, z := step.shown, r1.reports, rb.reports;
      AppendAssoc(x, y, z);
      assert rab.reports == y + z;
      assert Run(w, m, a).reports == x + y;
    }
  }

  /** What the loop shows for an event it passes over: an interrupt is cancelled, a raising command an error. */
  function SkipReports(e: Event): seq<Report> {
    if e.Interrupt? then [Cancelled] else if e.Line? && RaisingLine(e.text) then [ErrorShown] else []
  }

  /**
   * Blank lines, interrupts and commands that raise change nothing in the
   * rest of the session; an interrupt only shows that the operation was
   * cancelled, and a raising command only shows the error.
   */
  lemma SkippedEvents(w: World, m: Models, e: Event, rest: seq<Event>)
    requires e.Interrupt? || (e.Line? && (AllSpace(e.text) || RaisingLine(e.text)))
    ensures var r := Run(w, m, rest);
      Run(w, m, [e] + rest) == RunResult(r.world, r.exited, SkipReports(e) + r.reports)
  {
    assert StepOf(w, m, e) == Continue(w, SkipReports(e));
    assert ([e] + rest)[1..] == rest;
  }

  /**
   * `record <arg>` raises whenever `int()` rejects `arg` (`record abc`,
   * say), so the loop shows the error and goes on.
   */
  lemma RecordWithoutNumberRaises(arg: string)
    requires IsToken(arg) && ParseInt(arg).None?
    ensures RaisingLine("record " + arg)
  {
    var ws := ["record", arg];
    assert IsToken(ws[0]);
    SplitJoin(ws);
    assert Join(ws, " ") == "record " + arg;
    assert !AllSpace("record " + arg) by {
      assert !IsSpace(("record " + arg)[0]);
    }
    assert Lower("record") == "record";
  }



  /** The loop stops at the first exit line, whatever follows it. */
  lemma {:induction false} ExitStopsRun(w: World, m: Models, before: seq<Event>, exitLine: Event, after: seq<Event>)
    requires forall k :: 0 <= k < |before| ==> !EndsLoop(before[k])
    requires IsExitLine(exitLine)
    ensures var rb := Run(w, m, before);
      Run(w, m, before + [exitLine] + after) == RunResult(rb.world, true, rb.reports + [NoReport])
  {
    var rb := Run(w, m, before);
    assert before + [exitLine] + after == before + ([exitLine] + after);
    RunAppend(w, m, before, [exitLine] + after);
    RunFromExit(rb.world, m, exitLine, after);
  }

  lemma RunFromExit(w: World, m: Models, exitLine: Event, after: seq<Event>)
    requires IsExitLine(exitLine)
    ensures Run(w, m, [exitLine] + after) == RunResult(w, true, [NoReport])
  {
    ExitStep(w, m, exitLine);
    assert ([exitLine] + after)[0] == exitLine;
  }

  /** The end of input stops the loop with the world as it was, whatever follows. */
  lemma {:induction false} EndOfInputEndsRun(w: World, m: Models, before: seq<Event>, after: seq<Event>)
    requires forall k :: 0 <= k < |before| ==> !EndsLoop(before[k])
    ensures var rb := Run(w, m, before);
      Run(w, m, before + [EndOfInput] + after) == RunResult(rb.world, true, rb.reports)
  {
    var rb := Run(w, m, before);
    var tail := [EndOfInput] + after;
    assert before + [EndOfInput] + after == before + tail;
    RunFromEndOfInput(rb.world, m, after);
    RunThenSilentStop(w, m, before, tail);
  }

  /** Input that runs through `before` and then stops at once without showing anything. */
  lemma RunThenSilentStop(w: World, m: Models, before: seq<Event>, tail: seq<Event>)
    requires !Run(w, m, before).exited
    requires Run(Run(w, m, before).world, m, tail) == RunResult(Run(w, m, before).world, true, [])
    ensures var rb := Run(w, m, before);
      Run(w, m, before + tail) == RunResult(rb.world, true, rb.reports)
  {
    var rb := Run(w, m, before);
    RunAppend(w, m, before, tail);
    assert rb.reports + [] == rb.reports;
  }

  lemma RunFromEndOfInput(w: World, m: Models, after: seq<Event>)
    ensures Run(w, m, [EndOfInput] + after) == RunResult(w, true, [])
  {
    assert ([EndOfInput] + after)[0] == EndOfInput;
  }

  // ---------------------------------------------------------------------
  // The loop as cli.py writes it
  // ---------------------------------------------------------------------

  /**
   * The loop body as written: at the end of input `input()` raises
   * `EOFError`, the catch-all handler shows it and `running` stays true,
   * so only the exit command stops the loop.
   */
  function StepAsWritten(w: World, m: Models, e: Event): (r: Step)
    ensures r.Stop? <==> IsExitLine(e)
    ensures e.EndOfInput? ==> r.world == w && r.shown == [ErrorShown]
    ensures !e.EndOfInput? ==> r == StepOf(w, m, e)
  {
    if e.EndOfInput? then Continue(w, [ErrorShown]) else StepOf(w, m, e)
  }

  /** The loop as written over a finite sequence of events: it exits exactly when an exit line comes. */
  function RunAsWritten(w: World, m: Models, events: seq<Event>): (r: RunResult)
    ensures r.exited <==> exists k :: 0 <= k < |events| && IsExitLine(events[k])
    decreases |events|
  {
    if events == [] then RunResult(w, false, [])
    else
      match StepAsWritten(w, m, events[0])
      case Stop(w', shown) => RunResult(w', true, shown)
      case Continue(w', shown) =>
        var r := RunAsWritten(w', m, events[1..]);
        SomeInTail(events, IsExitLine);
        RunResult(r.world, r.exited, shown + r.reports)
  }

  /**
   * Once input has ended every read ends it again, and the loop as written
   * never exits and never changes anything, however many reads it makes;
   * each read shows the error once more.
   */
  lemma {:induction false} EndOfInputSpinsAsWritten(w: World, m: Models, n: nat)
    ensures RunAsWritten(w, m, seq(n, i => EndOfInput)) == RunResult(w, false, seq(n, i => ErrorShown))
  {
    if n > 0 {
      var events := seq(n, i => EndOfInput);
      assert events[0] == EndOfInput;
      assert events[1..] == seq(n - 1, i => EndOfInput);
      EndOfInputSpinsAsWritten(w, m, n - 1);
      assert [ErrorShown] + seq(n - 1, i => ErrorShown) == seq(n, i => ErrorShown);
    }
  }

  /** The loop as written also keeps every session good and only ever loads models. */
  lemma {:induction false} RunAsWrittenKeepsGood(w: World, m: Models, events: seq<Event>)
    requires Good(w.session)
    ensures Good(RunAsWritten(w, m, events).world.session)
    ensures Grows(w.session.loaded, RunAsWritten(w, m, events).world.session.loaded)
    decreases |events|
  {
    if events != [] {
      var step := StepAsWritten(w, m, events[0]);
      if step.Continue? {
        RunAsWrittenKeepsGood(step.world, m, events[1..]);
      }
    }
  }

  /** On input that never ends, the corrected loop and the loop as written agree. */
  lemma {:induction false} RunMatchesAsWritten(w: World, m: Models, events: seq<Event>)
    requires forall k :: 0 <= k < |events| ==> !events[k].EndOfInput?
    ensures Run(w, m, events) == RunAsWritten(w, m, events)
    decreases |events|
  {
    if events != [] {
      assert !events[0].EndOfInput?;
      var step := StepOf(w, m, events[0]);
      assert StepAsWritten(w, m, events[0]) == step;
      if step.Continue? {
        assert forall k :: 0 <= k < |events[1..]| ==> events[1..][k] == events[k + 1];
        RunMatchesAsWritten(step.world, m, events[1..]);
      }
    }
  }
}

=== FILE: dataprep.dfy ===
/**
 * Training-data preparation of data/setup.py: the length fields
 * `prepare_ds` adds to an example, the length filters, and the label side
 * of the sequence-to-sequence data collator (padding, masking of padding
 * with the dummy id, and removal of a leading start-of-sequence column).
 *
 * The feature extractor and the tokenizer are pretrained components and
 * are parameters here.
 */
module DataPrep {
  import opened Wrappers

  const SAMPLE_RATE: nat := 16000
  /** Seconds. */
  const MAX_AUDIO_LENGTH: nat := 30
  const MAX_LABEL_LENGTH: nat := 448
  /** The label id the loss ignores. */
  const DUMMY_TOKEN: int := -100

  /** A field of a dataset example. */
  datatype Value =
    | AudioValue(samples: seq<real>)
    | TextValue(text: string)
    | IntValue(n: int)
    | IdsValue(ids: seq<int>)
    | FeaturesValue(features: seq<seq<real>>)

  type Example = map<string, Value>

  /** The log-Mel features of an audio array at a sampling rate. */
  type FeatureExtractor = (seq<real>, nat) -> seq<seq<real>>

  /** The token ids of a text. */
  type Tokenizer = string -> seq<int>

  /** The fields `prepare_ds` writes. */
  const PREPARED_KEYS: set<string> := {"input_length", "input_features", "labels", "labels_length"}

  /**
   * `prepare_ds(batch, feature_extractor, tokenizer)`: adds the audio
   * length, the features, the label ids and their number, keeping every
   * other field. `None` where the example has no audio array or no
   * transcription, which raises.
   */
  function PrepareDs(batch: Example, extract: FeatureExtractor, tokenize: Tokenizer): (r: Option<Example>)
    ensures r.Some? <==>
      "audio" in batch && batch["audio"].AudioValue? && "transcription" in batch && batch["transcription"].TextValue?
    ensures r.Some? ==>
      var audio := batch["audio"].samples;
      var labels := tokenize(batch["transcription"].text);
      && r.value.Keys == batch.Keys + PREPARED_KEYS
      && r.value["input_length"] == IntValue(|audio|)
      && r.value["input_features"] == FeaturesValue(extract(audio, SAMPLE_RATE))
      && r.value["labels"] == IdsValue(labels)
      && r.value["labels_length"] == IntValue(|labels|)
      && (forall k :: k in batch && k !in PREPARED_KEYS ==> r.value[k] == batch[k])
  {
    if "audio" in batch && batch["audio"].AudioValue? && "transcription" in batch && batch["transcription"].TextValue? then
      var audio := batch["audio"].samples;
      var labels := tokenize(batch["transcription"].text);
      Some(batch["input_length" := IntValue(|audio|)]
                 ["input_features" := FeaturesValue(extract(audio, SAMPLE_RATE))]
                 ["labels" := IdsValue(labels)]
                 ["labels_length" := IntValue(|labels|)])
    else None
  }

  /** `filter_audios(input_length)`: non-empty and strictly shorter than the maximum duration. */
  predicate FilterAudios(inputLength: int) {
    0 < inputLength < SAMPLE_RATE * MAX_AUDIO_LENGTH
  }

  /** `filter_labels(labels_length)`: strictly fewer ids than the decoder's maximum. */
  predicate FilterLabels(labelsLength: int) {
    labelsLength < MAX_LABEL_LENGTH
  }

  /** Both bounds are strict: 0 and 480000 samples are dropped, 479999 kept; 447 ids kept, 448 dropped. */
  lemma FilterBoundaries()
    ensures SAMPLE_RATE * MAX_AUDIO_LENGTH == 480000
    ensures !FilterAudios(0) && FilterAudios(1) && FilterAudios(479999) && !FilterAudios(480000)
    ensures FilterLabels(447) && !FilterLabels(448)
  {
  }

  /**
   * A prepared example passes the filters exactly when its audio is
   * non-empty and under 30 seconds at 16 kHz and its transcription
   * tokenizes to fewer than 448 ids.
   */
  lemma PreparedExampleKept(batch: Example, extract: FeatureExtractor, tokenize: Tokenizer)
    requires PrepareDs(batch, extract, tokenize).Some?
    ensures var ex := PrepareDs(batch, extract, tokenize).value;
      var audio := batch["audio"].samples;
      var labels := tokenize(batch["transcription"].text);
      && (FilterAudios(ex["input_length"].n) <==> 0 < |audio| < 480000)
      && (FilterLabels(ex["labels_length"].n) <==> |labels| < 448)
  {
  }

  // ---------------------------------------------------------------------
  // Label collation
  // ---------------------------------------------------------------------

  type Matrix = seq<seq<int>>

  /** Every row of `m` has `width` entries. */
  predicate Rectangular(m: Matrix, width: nat) {
    forall i :: 0 <= i < |m| ==> |m[i]| == width
  }

  /** The length of the longest row, 0 for no rows. */
  function MaxLen(rows: Matrix): (n: nat)
    ensures forall i :: 0 <= i < |rows| ==> |rows[i]| <= n
    ensures rows != [] ==> exists i :: 0 <= i < |rows| && |rows[i]| == n
    ensures rows == [] ==> n == 0
  {
    if rows == [] then 0
    else
      var rest := MaxLen(rows[1..]);
      assert forall i :: 1 <= i < |rows| ==> rows[i] == rows[1..][i - 1];
      if |rows[0]| >= rest then |rows[0]| else rest
  }

  /** What `tokenizer.pad` returns: the padded ids and the attention mask. */
  datatype Padded = Padded(inputIds: Matrix, attentionMask: Matrix)

  /**
   * `tokenizer.pad(label_features)` with its defaults: every row
   * right-padded with the pad id to the longest row, and a mask of 1 on
   * the original ids and 0 on the padding.
   */
  function PadLabels(rows: Matrix, padId: int): (p: Padded)
    ensures |p.inputIds| == |rows| && |p.attentionMask| == |rows|
    ensures Rectangular(p.inputIds, MaxLen(rows)) && Rectangular(p.attentionMask, MaxLen(rows))
    ensures forall i, j :: 0 <= i < |rows| && 0 <= j < |rows[i]| ==>
      p.inputIds[i][j] == rows[i][j] && p.attentionMask[i][j] == 1
    ensures forall i, j :: 0 <= i < |rows| && |rows[i]| <= j < MaxLen(rows) ==>
      p.inputIds[i][j] == padId && p.attentionMask[i][j] == 0
  {
    var w := MaxLen(rows);
    Padded(seq(|rows|, i requires 0 <= i < |rows| =>
                 seq(w, j requires 0 <= j < w => if j < |rows[i]| then rows[i][j] else padId)),
           seq(|rows|, i requires 0 <= i < |rows| =>
                 seq(w, j requires 0 <= j < w => if j < |rows[i]| then 1 else 0)))
  }

  /** `ids.masked_fill(mask.ne(1), DUMMY_TOKEN)`. */
  function MaskFill(ids: Matrix, mask: Matrix, width: nat): (r: Matrix)
    requires |mask| == |ids| && Rectangular(ids, width) && Rectangular(mask, width)
    ensures |r| == |ids| && Rectangular(r, width)
    ensures forall i, j :: 0 <= i < |ids| && 0 <= j < width ==>
      r[i][j] == (if mask[i][j] != 1 then DUMMY_TOKEN else ids[i][j])
  {
    seq(|ids|, i requires 0 <= i < |ids| =>
      seq(width, j requires 0 <= j < width => if mask[i][j] != 1 then DUMMY_TOKEN else ids[i][j]))
  }

  /** `(labels[:, 0] == bos).all()`. */
  predicate FirstColumnIs(labels: Matrix, bos: int)
    requires forall i :: 0 <= i < |labels| ==> |labels[i]| > 0
  {
    forall i :: 0 <= i < |labels| ==> labels[i][0] == bos
  }

  /** `labels[:, 1:]`. */
  function DropFirstColumn(labels: Matrix, width: nat): (r: Matrix)
    requires width > 0 && Rectangular(labels, width)
    ensures |r| == |labels| && Rectangular(r, width - 1)
    ensures forall i, j :: 0 <= i < |labels| && 0 <= j < width - 1 ==> r[i][j] == labels[i][j + 1]
  {
    seq(|labels|, i requires 0 <= i < |labels| => labels[i][1..])
  }

  /** The label a row contributes at column `j` once padded and masked. */
  function MaskedAt(row: seq<int>, j: nat): int {
    if j < |row| then row[j] else DUMMY_TOKEN
  }

  /** Every row's masked first entry is the start-of-sequence id. */
  predicate StartsWithBos(rows: Matrix, bos: int) {
    forall i :: 0 <= i < |rows| ==> MaskedAt(rows[i], 0) == bos
  }

  /**
   * The labels the collator returns: `None` where indexing column 0 of an
   * empty batch or of zero-width labels raises; otherwise the padded,
   * masked rows, without their first column when every row starts with
   * the start-of-sequence id.
   */
  function CollateLabels(rows: Matrix, padId: int, bos: int): (r: Option<Matrix>)
    ensures r.None? <==> rows == [] || MaxLen(rows) == 0
    ensures r.Some? ==>
      var off := if StartsWithBos(rows, bos) then 1 else 0;
      && |r.value| == |rows|
      && Rectangular(r.value, MaxLen(rows) - off)
      && (forall i, j :: 0 <= i < |rows| && 0 <= j < MaxLen(rows) - off ==>
            r.value[i][j] == MaskedAt(rows[i], j + off))
  {
    var w := MaxLen(rows);
    if rows == [] || w == 0 then None
    else
      var padded := PadLabels(rows, padId);
      var labels := MaskFill(padded.inputIds, padded.attentionMask, w);
      assert forall i :: 0 <= i < |rows| ==> labels[i][0] == MaskedAt(rows[i], 0);
      if FirstColumnIs(labels, bos) then
        assert StartsWithBos(rows, bos);
        Some(DropFirstColumn(labels, w))
      else
        assert !StartsWithBos(rows, bos);
        Some(labels)
  }

  /** The pad id never shows: every padded position is the dummy id whatever it was padded with. */
  lemma PadIdIrrelevant(rows: Matrix, pad1: int, pad2: int, bos: int)
    ensures CollateLabels(rows, pad1, bos) == CollateLabels(rows, pad2, bos)
  {
    var r1 := CollateLabels(rows, pad1, bos);
    var r2 := CollateLabels(rows, pad2, bos);
    if r1.Some? {
      var off := if StartsWithBos(rows, bos) then 1 else 0;
      var w := MaxLen(rows) - off;
      assert forall i :: 0 <= i < |rows| ==> r1.value[i] == r2.value[i] by {
        forall i | 0 <= i < |rows| ensures r1.value[i] == r2.value[i] {
          assert |r1.value[i]| == w == |r2.value[i]|;
          assert forall j :: 0 <= j < w ==> r1.value[i][j] == r2.value[i][j];
        }
      }
      assert r1.value == r2.value;
    }
  }

  /**
   * For a start-of-sequence id other than the dummy id, the first column is
   * dropped exactly when every row is non-empty and starts with it, and
   * dropping shortens every row by one.
   */
  lemma BosStripCondition(rows: Matrix, padId: int, bos: int)
    requires bos != DUMMY_TOKEN
    requires CollateLabels(rows, padId, bos).Some?
    ensures StartsWithBos(rows, bos) <==> forall i :: 0 <= i < |rows| ==> |rows[i]| > 0 && rows[i][0] == bos
    ensures var r := CollateLabels(rows, padId, bos).value;
      StartsWithBos(rows, bos) ==> Rectangular(r, MaxLen(rows) - 1)
    ensures var r := CollateLabels(rows, padId, bos).value;
      !StartsWithBos(rows, bos) ==> Rectangular(r, MaxLen(rows))
  {
    forall i | 0 <= i < |rows|
      ensures MaskedAt(rows[i], 0) == bos <==> |rows[i]| > 0 && rows[i][0] == bos
    {
    }
  }

  /** A real token keeps its id and its place in its row; padding becomes the dummy id. */
  lemma CollatedRowsKeepTokens(rows: Matrix, padId: int, bos: int, i: nat, j: nat)
    requires CollateLabels(rows, padId, bos).Some?
    requires i < |rows|
    ensures var off := if StartsWithBos(rows, bos) then 1 else 0;
      var r := CollateLabels(rows, padId, bos).value;
      && (off <= j < |rows[i]| ==> r[i][j - off] == rows[i][j])
      && (|rows[i]| <= j < MaxLen(rows) && off <= j ==> r[i][j - off] == DUMMY_TOKEN)
  {
  }

  /** Two transcriptions tokenized as [bos, 5, 6] and [bos, 7] collate to [[5, 6], [7, -100]]. */
  lemma CollateExample(bos: int, padId: int)
    requires bos != DUMMY_TOKEN
    ensures CollateLabels([[bos, 5, 6], [bos, 7]], padId, bos) == Some([[5, 6], [7, DUMMY_TOKEN]])
  {
    var rows := [[bos, 5, 6], [bos, 7]];
    assert MaxLen(rows) == 3;
    assert StartsWithBos(rows, bos);
    var r := CollateLabels(rows, padId, bos).value;
    assert r[0] == [5, 6];
    assert r[1] == [7, DUMMY_TOKEN];
    assert r == [[5, 6], [7, DUMMY_TOKEN]];
  }

  // ---------------------------------------------------------------------
  // The collator
  // ---------------------------------------------------------------------

  /** The collated batch: the padded features and the labels. */
  datatype Batch = Batch(inputFeatures: seq<seq<seq<real>>>, labels: Matrix)

  /** `feature_extractor.pad` on the feature matrices of a batch. */
  type FeaturePadder = seq<seq<seq<real>>> -> seq<seq<seq<real>>>

  /** The features and labels of one prepared example, `None` when either field is missing. */
  function Fields(ex: Example): (r: Option<(seq<seq<real>>, seq<int>)>)
    ensures r.Some? <==>
      "input_features" in ex && ex["input_features"].FeaturesValue? && "labels" in ex && ex["labels"].IdsValue?
  {
    if "input_features" in ex && ex["input_features"].FeaturesValue? && "labels" in ex && ex["labels"].IdsValue?
    then Some((ex["input_features"].features, ex["labels"].ids))
    else None
  }

  predicate AllHaveFields(features: seq<Example>) {
    forall i :: 0 <= i < |features| ==> Fields(features[i]).Some?
  }

  /** `[{"input_ids": feature["labels"]} for feature in features]`, one row per example in order. */
  function LabelRows(features: seq<Example>): (rows: Matrix)
    requires AllHaveFields(features)
    ensures |rows| == |features|
    ensures forall i :: 0 <= i < |features| ==> rows[i] == Fields(features[i]).value.1
  {
    seq(|features|, i requires 0 <= i < |features| => Fields(features[i]).value.1)
  }

  /** `[{"input_features": feature["input_features"]} for feature in features]`. */
  function FeatureRows(features: seq<Example>): (rows: seq<seq<seq<real>>>)
    requires AllHaveFields(features)
    ensures |rows| == |features|
    ensures forall i :: 0 <= i < |features| ==> rows[i] == Fields(features[i]).value.0
  {
    seq(|features|, i requires 0 <= i < |features| => Fields(features[i]).value.0)
  }

  /**
   * `DataCollatorSpeechSeq2SeqWithPadding.__call__(features)`: the padded
   * features, and the examples' label rows collated in order. `None` where
   * a field is missing or label collation raises.
   */
  function Collate(features: seq<Example>, padFeatures: FeaturePadder, padId: int, bos: int)
    : (r: Option<Batch>)
    ensures r.Some? <==> AllHaveFields(features) && CollateLabels(LabelRows(features), padId, bos).Some?
    ensures r.Some? ==>
      && r.value.labels == CollateLabels(LabelRows(features), padId, bos).value
      && r.value.inputFeatures == padFeatures(FeatureRows(features))
      && |r.value.labels| == |features|
  {
    if !AllHaveFields(features) then None
    else
      match CollateLabels(LabelRows(features), padId, bos)
      case None => None
      case Some(labels) => Some(Batch(padFeatures(FeatureRows(features)), labels))
  }

  /** The transcription of an example that has one. */
  function Transcription(batch: Example): string
    requires "transcription" in batch && batch["transcription"].TextValue?
  {
    batch["transcription"].text
  }

  /** A prepared example carries the features of its audio and the ids of its transcription. */
  lemma PreparedFields(batch: Example, extract: FeatureExtractor, tokenize: Tokenizer)
    requires PrepareDs(batch, extract, tokenize).Some?
    ensures Fields(PrepareDs(batch, extract, tokenize).value)
            == Some((extract(batch["audio"].samples, SAMPLE_RATE), tokenize(Transcription(batch))))
  {
    var ex := PrepareDs(batch, extract, tokenize).value;
    assert "input_features" in PREPARED_KEYS && "labels" in PREPARED_KEYS;
    assert "input_features" in ex && "labels" in ex;
  }

  /**
   * Preparing examples gives label rows in example order, row `k` being the
   * ids of transcription `k`; by `CollateLabels` each real id keeps its
   * place in its row, shifted left by one when the first column is dropped.
   */
  lemma PreparedLabelRows(batches: seq<Example>, extract: FeatureExtractor, tokenize: Tokenizer)
    requires forall k :: 0 <= k < |batches| ==> PrepareDs(batches[k], extract, tokenize).Some?
    ensures var prepared := seq(|batches|, k requires 0 <= k < |batches| =>
                                  PrepareDs(batches[k], extract, tokenize).value);
      && AllHaveFields(prepared)
      && |LabelRows(prepared)| == |batches|
      && (forall k :: 0 <= k < |batches| && PrepareDs(batches[k], extract, tokenize).Some? ==>
            LabelRows(prepared)[k] == tokenize(Transcription(batches[k])))
  {
    var prepared := seq(|batches|, k requires 0 <= k < |batches| =>
                          PrepareDs(batches[k], extract, tokenize).value);
    forall k | 0 <= k < |batches|
      ensures Fields(prepared[k]) == Some((extract(batches[k]["audio"].samples, SAMPLE_RATE),
                                           tokenize(Transcription(batches[k]))))
    {
      PreparedFields(batches[k], extract, tokenize);
    }
  }
}

=== FILE: entry.dfy ===
/**
 * The entry point of main.py: set the languages from the command line,
 * then record, process a file, or run the interactive loop, in that order
 * of precedence.
 */
module Entry {
  import opened Wrappers
  import opened Files
  import opened Pipeline
  import opened Cli

  /** The parsed command line: `--source`, `--target`, `--record`, `--process`, `--interactive`. */
  datatype Args = Args(source: string, target: string, record: Option<int>, process: Option<string>,
                       interactive: bool)

  /** Which branch of `main` runs. */
  datatype Action = RecordAndProcessRecording | RecordOnly | ProcessFile | Interactive | Nothing

  /** What `main` leaves behind: the branch it took and the final world. */
  datatype Outcome = Outcome(action: Action, world: World)

  /** Python truth of an optional string: present and non-empty. */
  predicate Given(s: Option<string>) {
    s.Some? && s.value != ""
  }

  /**
   * The branch `main` takes. The third condition is written as main.py
   * writes it; it is reached only when `--record` is absent and
   * `--process` is not given, where its second disjunct always holds.
   */
  function ChooseAction(args: Args): (a: Action)
    ensures a == RecordAndProcessRecording <==> args.record.Some? && args.process.None?
    ensures a == RecordOnly <==> args.record.Some? && args.process.Some?
    ensures a == ProcessFile <==> args.record.None? && Given(args.process)
  {
    if args.record.Some? then
      if args.process.None? then RecordAndProcessRecording else RecordOnly
    else if Given(args.process) then ProcessFile
    else if args.interactive || (args.record.None? && !Given(args.process)) then Interactive
    else Nothing
  }

  /**
   * `main()`: the session starts as a fresh CLI's, takes the command-line
   * languages, and then runs the chosen branch. `dev` is what the
   * microphone and clock give a recording made here; `events` is the input
   * to the interactive loop.
   */
  function Main(fs: FileSystem, m: Models, args: Args, dev: Device, events: seq<Event>): (o: Outcome)
    ensures o.action == ChooseAction(args)
    ensures o.action == ProcessFile ==>
      o.world == ProcessAudioFile(Start(fs, args), m, args.process.value).1
    ensures o.action == RecordOnly ==>
      o.world == RecordAudio(Start(fs, args), dev, args.record, true).1
    ensures o.action == RecordAndProcessRecording ==>
      var (path, w1) := RecordAudio(Start(fs, args), dev, args.record, true);
      o.world == ProcessAudioFile(w1, m, path).1
    ensures o.action == Interactive ==> o.world == Run(Start(fs, args), m, events).world
  {
    var w := Start(fs, args);
    match ChooseAction(args)
    case RecordAndProcessRecording =>
      var (path, w1) := RecordAudio(w, dev, args.record, true);
      Outcome(RecordAndProcessRecording, ProcessAudioFile(w1, m, path).1)
    case RecordOnly => Outcome(RecordOnly, RecordAudio(w, dev, args.record, true).1)
    case ProcessFile => Outcome(ProcessFile, ProcessAudioFile(w, m, args.process.value).1)
    case Interactive => Outcome(Interactive, Run(w, m, events).world)
    case Nothing => Outcome(Nothing, w)
  }

  /** The world before any action: a fresh CLI with the command-line languages set. */
  function Start(fs: FileSystem, args: Args): (w: World)
    ensures w.fs == fs && w.session.loaded == NOTHING_LOADED
    ensures Supported(args.source) && Supported(args.target) ==>
      w.session.sourceLang == args.source && w.session.targetLang == args.target
    ensures Good(w.session)
  {
    World(SetLanguages(INITIAL, args.source, args.target), fs)
  }

  /** `--interactive` never changes what happens; the default-branch condition makes it redundant. */
  lemma InteractiveFlagIrrelevant(fs: FileSystem, m: Models, args: Args, dev: Device, events: seq<Event>)
    ensures Main(fs, m, args.(interactive := true), dev, events) == Main(fs, m, args.(interactive := false), dev, events)
    ensures ChooseAction(args) != Nothing
  {
  }

  /** With `--record`, even `--record 0`, recording runs and the interactive loop never starts. */
  lemma RecordNeverInteractive(args: Args)
    requires args.record.Some?
    ensures ChooseAction(args) == RecordAndProcessRecording || ChooseAction(args) == RecordOnly
  {
  }

  /**
   * `--record` together with `--process` records and processes nothing: no
   * transcript is written, and the only file added is the recording.
   */
  lemma RecordWithProcessProcessesNothing(fs: FileSystem, m: Models, args: Args, dev: Device, events: seq<Event>)
    requires args.record.Some? && args.process.Some?
    ensures var o := Main(fs, m, args, dev, events);
      && o.action == RecordOnly
      && o.world.session == Start(fs, args).session
      && (forall p :: p in o.world.fs && p !in fs ==> p == RecordingFile(dev.stamp))
      && (forall p :: p in fs && p != RecordingFile(dev.stamp) ==> o.world.fs[p] == fs[p])
  {
  }

  /** `--process` without `--record` processes that file and nothing else, `--interactive` or not. */
  lemma ProcessWithoutRecord(fs: FileSystem, m: Models, args: Args, dev: Device, events: seq<Event>)
    requires args.record.None? && Given(args.process)
    ensures Main(fs, m, args, dev, events).world == ProcessAudioFile(Start(fs, args), m, args.process.value).1
    ensures Main(fs, m, args, dev, events) == Main(fs, m, args.(interactive := !args.interactive), dev, events)
  {
  }

  /** With neither `--record` nor a file to process, the interactive loop runs. */
  lemma DefaultIsInteractive(args: Args)
    requires args.record.None? && !Given(args.process)
    ensures ChooseAction(args) == Interactive
  {
  }

  /**
   * With `--record` alone the freshly made recording is processed: when
   * recording succeeds and the pair has a direction, the pipeline runs on
   * `recordings/recording_<timestamp>.wav`.
   */
  lemma RecordThenProcess(fs: FileSystem, m: Models, args: Args, dev: Device, events: seq<Event>)
    requires args.record.Some? && args.process.None?
    requires RecordAudio(Start(fs, args), dev, args.record, true).0 != ""
    requires Route(Start(fs, args).session.sourceLang, Start(fs, args).session.targetLang).Some?
    ensures var w := Start(fs, args);
      var (path, w1) := RecordAudio(w, dev, args.record, true);
      var t := Route(w.session.sourceLang, w.session.targetLang).value;
      && path == RecordingFile(dev.stamp)
      && Main(fs, m, args, dev, events).world.session.loaded == LoadPipeline(NOTHING_LOADED, t)
  {
  }
}

=== FILE: files.dfy ===
/**
 * The file system as the program sees it: a map from path to contents, and
 * reading a WAV file back as `soundfile.read` does.
 */
module Files {
  import opened Wrappers
  import opened Pcm

  datatype File = TextFile(text: string) | AudioFile(wav: Wav)

  type FileSystem = map<string, File>

  /** Audio as handed to the recogniser: interleaved samples, rate and channel count. */
  datatype AudioData = AudioData(samples: seq<Sample>, rate: nat, channels: nat)

  /**
   * `soundfile.read(path)` on a 16-bit WAV file: the values of its whole
   * 2-byte samples, an odd final byte dropped. `None` where the read raises:
   * no such file, or not a 16-bit WAV.
   */
  function ReadAudio(fs: FileSystem, path: string): (r: Option<AudioData>)
    ensures r.Some? ==> path in fs && fs[path].AudioFile? && fs[path].wav.sampleWidth == 2
    ensures r.Some? ==> r.value.rate == fs[path].wav.frameRate && r.value.channels == fs[path].wav.channels
  {
    if path in fs && fs[path].AudioFile? && fs[path].wav.sampleWidth == 2 then
      var w := fs[path].wav;
      var whole := |w.frames| - |w.frames| % 2;
      Some(AudioData(SliceValues(w.frames[..whole]), w.frameRate, w.channels))
    else None
  }

  /** A 16-bit WAV file with a whole number of samples reads as the values of all its frames. */
  lemma ReadWhole(fs: FileSystem, path: string, w: Wav)
    requires w.sampleWidth == 2 && |w.frames| % 2 == 0
    ensures ReadAudio(fs[path := AudioFile(w)], path) == Some(AudioData(SliceValues(w.frames), w.frameRate, w.channels))
  {
    assert w.frames[..|w.frames| - |w.frames| % 2] == w.frames;
  }

  /** Reading back a 16-bit WAV file gives exactly the samples its frames encode. */
  lemma ReadWritten(fs: FileSystem, path: string, xs: seq<Sample>, channels: nat, rate: nat)
    ensures ReadAudio(fs[path := AudioFile(Wav(channels, 2, rate, EncodeInt16(xs)))], path)
            == Some(AudioData(xs, rate, channels))
  {
    ReadWhole(fs, path, Wav(channels, 2, rate, EncodeInt16(xs)));
    DecodeEncode(xs);
  }
}

=== FILE: helpers.dfy ===
/**
 * The stand-alone recorder of src/helpers.py: a fixed number of reads
 * decoded as 16-bit samples, and saving samples as a WAV file. The
 * microphone is the sequence of byte chunks it would return.
 */
module Helpers {
  import opened Wrappers
  import opened Pcm
  import opened Files
  import Capture

  datatype SampleFormat = PaInt16

  /** The arguments `PyAudio.open` receives. */
  datatype StreamConfig = StreamConfig(format: SampleFormat, channels: nat, rate: nat,
                                       input: bool, framesPerBuffer: nat)

  /** Why `record_audio` raises instead of returning samples. */
  datatype RecordError =
    | ZeroChunkSize   // the chunk count divides by `chunk_size`
    | OddByteCount    // `numpy.frombuffer` needs whole int16 elements
    | StreamEnded     // the modelled microphone ran out of chunks

  /** The input stream `record_audio` opens: 16-bit mono input at the sample rate, one chunk per buffer. */
  function OpenStream(sampleRate: nat, chunkSize: nat): (c: StreamConfig)
    ensures c.format == PaInt16 && c.channels == 1 && c.input
    ensures c.rate == sampleRate && c.framesPerBuffer == chunkSize
  {
    StreamConfig(PaInt16, 1, sampleRate, true, chunkSize)
  }

  /**
   * `record_audio(duration, sample_rate, chunk_size)`: reads
   * `int(sample_rate / chunk_size * duration)` chunks and decodes their
   * concatenation as int16 samples.
   */
  function RecordAudio(duration: int, sampleRate: nat, chunkSize: nat, mic: seq<Bytes>)
    : (r: Result<seq<Sample>, RecordError>)
    ensures r == Failure(ZeroChunkSize) <==> chunkSize == 0
    ensures r.Success? ==>
      var n := Capture.FixedChunkCount(sampleRate, chunkSize, duration);
      && n <= |mic|
      && 2 * |r.value| == |Flatten(mic[..n])|
      && EncodeInt16(r.value) == Flatten(mic[..n])
  {
    if chunkSize == 0 then Failure(ZeroChunkSize)
    else
      var n := Capture.FixedChunkCount(sampleRate, chunkSize, duration);
      if n > |mic| then Failure(StreamEnded)
      else
        match DecodeInt16(Flatten(mic[..n]))
        case None => Failure(OddByteCount)
        case Some(samples) =>
          EncodeDecode(Flatten(mic[..n]));
          Success(samples)
  }

  /** When every read returns `chunk_size` frames, the result holds chunks times `chunk_size` samples. */
  lemma RecordedSampleCount(duration: int, sampleRate: nat, chunkSize: nat, mic: seq<Bytes>)
    requires chunkSize > 0
    requires Capture.FixedChunkCount(sampleRate, chunkSize, duration) <= |mic|
    requires forall i :: 0 <= i < |mic| ==> |mic[i]| == 2 * chunkSize
    ensures RecordAudio(duration, sampleRate, chunkSize, mic).Success?
    ensures |RecordAudio(duration, sampleRate, chunkSize, mic).value|
            == Capture.FixedChunkCount(sampleRate, chunkSize, duration) * chunkSize
  {
    var n := Capture.FixedChunkCount(sampleRate, chunkSize, duration);
    var chunks := mic[..n];
    assert |Flatten(chunks)| == 2 * (n * chunkSize) by {
      assert forall i :: 0 <= i < |chunks| ==> |chunks[i]| == 2 * chunkSize;
      UniformChunks(chunks, chunkSize);
    }
    assert DecodeInt16(Flatten(chunks)).Some?;
  }

  lemma UniformChunks(chunks: seq<Bytes>, chunkSize: nat)
    requires forall i :: 0 <= i < |chunks| ==> |chunks[i]| == 2 * chunkSize
    ensures |Flatten(chunks)| == 2 * (|chunks| * chunkSize)
  {
    FlattenUniform(chunks, 2 * chunkSize);
    assert |chunks| * (2 * chunkSize) == 2 * (|chunks| * chunkSize);
  }

  /** Five seconds at 16 kHz in 1024-frame reads is 78 reads, 79872 samples. */
  lemma RecordFiveSecondsAt16k(mic: seq<Bytes>)
    requires |mic| >= 78
    requires forall i :: 0 <= i < |mic| ==> |mic[i]| == 2048
    ensures Capture.FixedChunkCount(16000, 1024, 5) == 78
    ensures RecordAudio(5, 16000, 1024, mic).Success?
    ensures |RecordAudio(5, 16000, 1024, mic).value| == 79872
  {
    RecordedSampleCount(5, 16000, 1024, mic);
  }

  /** `save_audio(audio_data, filename, sample_rate)`: mono, two bytes per sample, at the given rate. */
  function SaveAudio(fs: FileSystem, samples: seq<Sample>, filename: string, sampleRate: nat)
    : (fs': FileSystem)
    ensures fs'.Keys == fs.Keys + {filename}
    ensures forall p :: p in fs && p != filename ==> fs'[p] == fs[p]
    ensures fs'[filename].AudioFile?
    ensures var w := fs'[filename].wav; w.channels == 1 && w.sampleWidth == 2 && w.frameRate == sampleRate
  {
    fs[filename := AudioFile(Wav(1, 2, sampleRate, EncodeInt16(samples)))]
  }

  /** A saved recording reads back as the same samples at the same rate. */
  lemma SaveThenRead(fs: FileSystem, samples: seq<Sample>, filename: string, sampleRate: nat)
    ensures ReadAudio(SaveAudio(fs, samples, filename, sampleRate), filename)
            == Some(AudioData(samples, sampleRate, 1))
  {
    ReadWritten(fs, filename, samples, 1, sampleRate);
  }
}

=== FILE: pcm.dfy ===
/**
 * Raw 16-bit PCM: bytes, little-endian signed decoding as `int.from_bytes`
 * and `numpy.frombuffer(..., int16)` perform it, the inverse encoding of
 * `ndarray.tobytes()`, the peak amplitude of a chunk, and the parameters of
 * a WAV file.
 */
module Pcm {
  import opened Wrappers

  newtype byte = b: int | 0 <= b < 256

  type Bytes = seq<byte>

  /** A signed 16-bit sample value. */
  type Sample = v: int | -32768 <= v < 32768

  /** `int.from_bytes(bytes([b]), "little", signed=True)`. */
  function SignedByte(b: byte): Sample {
    if b < 128 then b as int else b as int - 256
  }

  /** `int.from_bytes(bytes([lo, hi]), "little", signed=True)`. */
  function Int16LE(lo: byte, hi: byte): Sample {
    var u := hi as int * 256 + lo as int;
    if u < 32768 then u else u - 65536
  }

  /**
   * The values of the slices `data[i:i+2]` for `i` in `range(0, len(data), 2)`:
   * whole pairs decode as 16-bit samples, and a trailing odd byte decodes as
   * a signed 8-bit value.
   */
  function SliceValues(data: Bytes): (r: seq<Sample>)
    ensures |r| == (|data| + 1) / 2
    ensures forall k :: 0 <= k < |data| / 2 ==> r[k] == Int16LE(data[2 * k], data[2 * k + 1])
    ensures |data| % 2 == 1 ==> r[|r| - 1] == SignedByte(data[|data| - 1])
    decreases |data|
  {
    if |data| == 0 then []
    else if |data| == 1 then [SignedByte(data[0])]
    else
      var rest := SliceValues(data[2..]);
      SliceShift(data, rest);
      [Int16LE(data[0], data[1])] + rest
  }

  /** The values of `data[2:]` are those of `data` from the second pair on. */
  lemma SliceShift(data: Bytes, rest: seq<Sample>)
    requires |data| >= 2 && |rest| == (|data| - 1) / 2
    requires forall k :: 0 <= k < (|data| - 2) / 2 ==> rest[k] == Int16LE(data[2..][2 * k], data[2..][2 * k + 1])
    ensures forall k :: 1 <= k < |data| / 2 ==> ([Int16LE(data[0], data[1])] + rest)[k] == Int16LE(data[2 * k], data[2 * k + 1])
  {
    var r := [Int16LE(data[0], data[1])] + rest;
    forall k | 1 <= k < |data| / 2
      ensures r[k] == Int16LE(data[2 * k], data[2 * k + 1])
    {
      var j := k - 1;
      assert r[k] == rest[j];
      assert data[2..][2 * j] == data[2 * k] && data[2..][2 * j + 1] == data[2 * k + 1];
    }
  }

  function Abs(x: int): nat {
    if x < 0 then -x else x
  }

  /** The largest absolute value in a non-empty sequence. */
  function MaxAbs(vs: seq<int>): (m: nat)
    requires |vs| > 0
    ensures forall k :: 0 <= k < |vs| ==> Abs(vs[k]) <= m
    ensures exists k :: 0 <= k < |vs| && Abs(vs[k]) == m
  {
    if |vs| == 1 then Abs(vs[0])
    else
      var m := MaxAbs(vs[1..]);
      assert forall k :: 1 <= k < |vs| ==> vs[k] == vs[1..][k - 1];
      if Abs(vs[0]) >= m then Abs(vs[0]) else m
  }

  /**
   * The amplitude `record_until_silence` computes for one chunk: the largest
   * absolute slice value. `None` for an empty chunk, where `max` of an empty
   * generator raises.
   */
  function Amplitude(data: Bytes): (r: Option<nat>)
    ensures r.None? <==> data == []
    ensures r.Some? ==> r.value <= 32768
    ensures r.Some? ==> forall k :: 0 <= k < |SliceValues(data)| ==> Abs(SliceValues(data)[k]) <= r.value
    ensures r.Some? ==> exists k :: 0 <= k < |SliceValues(data)| && Abs(SliceValues(data)[k]) == r.value
  {
    if data == [] then None else Some(MaxAbs(SliceValues(data)))
  }

  /** The most negative sample is the loudest: bytes 00 80 have amplitude 32768. */
  lemma AmplitudeOfMinimum()
    ensures Amplitude([0x00, 0x80]) == Some(32768)
  {
    assert SliceValues([0x00, 0x80]) == [Int16LE(0x00, 0x80)];
  }

  /** The two little-endian bytes of one sample. */
  function SampleBytes(x: Sample): Bytes {
    var u := if x < 0 then x + 65536 else x;
    [(u % 256) as byte, (u / 256) as byte]
  }

  lemma SampleBytesDecode(x: Sample)
    ensures Int16LE(SampleBytes(x)[0], SampleBytes(x)[1]) == x
  {
    var u := if x < 0 then x + 65536 else x;
    assert (u / 256) * 256 + u % 256 == u;
  }

  /** `ndarray.tobytes()` for an int16 array. */
  function EncodeInt16(xs: seq<Sample>): (r: Bytes)
    ensures |r| == 2 * |xs|
  {
    if xs == [] then [] else SampleBytes(xs[0]) + EncodeInt16(xs[1..])
  }

  /** `numpy.frombuffer(data, dtype=int16)`; `None` where numpy raises on an odd byte count. */
  function DecodeInt16(data: Bytes): (r: Option<seq<Sample>>)
    ensures r.None? <==> |data| % 2 == 1
    ensures r.Some? ==> 2 * |r.value| == |data|
  {
    if |data| % 2 == 1 then None else Some(SliceValues(data))
  }

  /** Decoding undoes encoding. */
  lemma {:induction false} DecodeEncode(xs: seq<Sample>)
    ensures DecodeInt16(EncodeInt16(xs)) == Some(xs)
  {
    if xs != [] {
      DecodeEncode(xs[1..]);
      var e := EncodeInt16(xs);
      assert e[2..] == EncodeInt16(xs[1..]);
      assert SliceValues(e) == [Int16LE(e[0], e[1])] + SliceValues(e[2..]);
      SampleBytesDecode(xs[0]);
      assert e[0] == SampleBytes(xs[0])[0] && e[1] == SampleBytes(xs[0])[1];
      assert SliceValues(e[2..]) == xs[1..];
      assert SliceValues(e) == xs;
      assert |e| % 2 == 0;
    }
  }

  /** Encoding undoes decoding, for every whole number of samples. */
  lemma {:induction false} EncodeDecode(data: Bytes)
    requires |data| % 2 == 0
    ensures EncodeInt16(SliceValues(data)) == data
    decreases |data|
  {
    if data != [] {
      EncodeDecode(data[2..]);
      var xs := SliceValues(data);
      assert xs == [Int16LE(data[0], data[1])] + SliceValues(data[2..]);
      assert xs[1..] == SliceValues(data[2..]);
      assert SampleBytes(xs[0]) == data[..2];
      assert data == data[..2] + data[2..];
    }
  }

  /** `b"".join(chunks)`. */
  function Flatten(chunks: seq<Bytes>): Bytes {
    if chunks == [] then [] else chunks[0] + Flatten(chunks[1..])
  }

  /** Joining chunks of a common size gives that size times their number. */
  lemma {:induction false} FlattenUniform(chunks: seq<Bytes>, size: nat)
    requires forall i :: 0 <= i < |chunks| ==> |chunks[i]| == size
    ensures |Flatten(chunks)| == |chunks| * size
  {
    if chunks != [] {
      FlattenUniform(chunks[1..], size);
    }
  }

  /** Joining the first `n + 1` chunks extends joining the first `n` by chunk `n`. */
  lemma {:induction false} FlattenSnoc(chunks: seq<Bytes>, n: nat)
    requires n < |chunks|
    ensures Flatten(chunks[..n + 1]) == Flatten(chunks[..n]) + chunks[n]
  {
    if n > 0 {
      assert chunks[..n + 1][1..] == chunks[1..][..n];
      assert chunks[..n][1..] == chunks[1..][..n - 1];
      FlattenSnoc(chunks[1..], n - 1);
    } else {
      assert chunks[..1] == [chunks[0]];
      assert chunks[..1][1..] == [];
    }
  }

  /** The parameters and payload of a WAV file as the `wave` module writes it. */
  datatype Wav = Wav(channels: nat, sampleWidth: nat, frameRate: nat, frames: Bytes)
}

=== FILE: pipeline.dfy ===
/**
 * The speech translation pipeline of translator_by_speech/pipeline.py:
 * pair validation when the pipeline is built, and the fixed dataflow
 * "recognise speech in the source language, translate exactly that text"
 * into a four-field result.
 *
 * Speech recognition and translation are pretrained models; they are
 * uninterpreted functions here, carried in `Models`. `None` from either
 * stands for the call raising.
 */
module Pipeline {
  import opened Wrappers
  import opened Pcm
  import opened Files

  /** A speech recogniser, known by its model id. */
  datatype AsrModel = AsrModel(modelId: string)

  const DEFAULT_ASR_ID: string := "suzii/vi-whisper-large-v3-turbo-v1"

  /** A translation model: its pretrained name and the tokenizer's language codes. */
  datatype Translator = Translator(modelName: string, srcLang: string, tgtLang: string)

  /** `create_vi2en_translator()`. */
  const VI2EN: Translator := Translator("vinai/vinai-translate-vi2en-v2", "vi_VN", "en_XX")

  /** `create_en2vi_translator()`. */
  const EN2VI: Translator := Translator("vinai/vinai-translate-en2vi-v2", "en_XX", "vi_VN")

  /**
   * The opaque model calls: `transcribe_audio(array, rate, language)` and
   * `translate(text)`.
   */
  datatype Models = Models(transcribe: (AsrModel, AudioData, string) -> Option<string>,
                           translate: (Translator, string) -> Option<string>)

  /**
   * `transcribe_audio_file(path, language)`: read the file, then recognise
   * it; a file that cannot be read raises before the model runs.
   */
  function TranscribeFile(m: Models, asr: AsrModel, fs: FileSystem, path: string, language: string)
    : (r: Option<string>)
    ensures ReadAudio(fs, path).None? ==> r.None?
    ensures ReadAudio(fs, path).Some? ==> r == m.transcribe(asr, ReadAudio(fs, path).value, language)
  {
    match ReadAudio(fs, path)
    case None => None
    case Some(audio) => m.transcribe(asr, audio, language)
  }

  datatype SpeechPipeline = SpeechPipeline(asr: AsrModel, translator: Translator,
                                           sourceLang: string, targetLang: string)

  /** The dictionary both entry points return. */
  datatype PipelineResult = PipelineResult(sourceText: string, sourceLang: string,
                                           translatedText: string, targetLang: string)

  /** The pairs for which the pipeline can pick a translator itself. */
  predicate DefaultPair(sourceLang: string, targetLang: string) {
    || (sourceLang == "vi" && targetLang == "en_XX")
    || (sourceLang == "en" && targetLang == "vi_VN")
  }

  /**
   * `SpeechTranslationPipeline(asr_model, translator_model, source_lang,
   * target_lang)`: a missing recogniser is the default one; a missing
   * translator is chosen from the pair, and any other pair raises
   * `ValueError`. A supplied translator is used as it is, whatever the pair.
   */
  function NewPipeline(asr: Option<AsrModel>, translator: Option<Translator>,
                       sourceLang: string, targetLang: string)
    : (r: Result<SpeechPipeline, string>)
    ensures r.Failure? <==> translator.None? && !DefaultPair(sourceLang, targetLang)
    ensures r.Success? ==>
      && r.value.sourceLang == sourceLang
      && r.value.targetLang == targetLang
      && r.value.asr == (if asr.Some? then asr.value else AsrModel(DEFAULT_ASR_ID))
    ensures r.Success? && translator.Some? ==> r.value.translator == translator.value
    ensures r.Success? && translator.None? ==>
      r.value.translator == (if sourceLang == "vi" then VI2EN else EN2VI)
  {
    var model := asr.GetOr(AsrModel(DEFAULT_ASR_ID));
    match translator
    case Some(t) => Success(SpeechPipeline(model, t, sourceLang, targetLang))
    case None =>
      if sourceLang == "vi" && targetLang == "en_XX" then
        Success(SpeechPipeline(model, VI2EN, sourceLang, targetLang))
      else if sourceLang == "en" && targetLang == "vi_VN" then
        Success(SpeechPipeline(model, EN2VI, sourceLang, targetLang))
      else
        Failure("Unsupported language pair: " + sourceLang + " -> " + targetLang)
  }

  /**
   * A translator the pipeline picks itself translates into the pipeline's
   * target language, from the language the recogniser is told to expect.
   */
  lemma DefaultTranslatorMatchesPair(asr: Option<AsrModel>, sourceLang: string, targetLang: string)
    requires NewPipeline(asr, None, sourceLang, targetLang).Success?
    ensures var p := NewPipeline(asr, None, sourceLang, targetLang).value;
      && p.translator.tgtLang == p.targetLang
      && p.translator.srcLang[..2] == p.sourceLang
  {
  }

  /** Translate recognised text and assemble the result, or fail where either model call raised. */
  function Compose(p: SpeechPipeline, m: Models, recognised: Option<string>): Option<PipelineResult> {
    match recognised
    case None => None
    case Some(text) =>
      match m.translate(p.translator, text)
      case None => None
      case Some(translation) => Some(PipelineResult(text, p.sourceLang, translation, p.targetLang))
  }

  /** The result says what was recognised in the pipeline's source language and what that text translates to. */
  predicate Describes(p: SpeechPipeline, m: Models, recognised: Option<string>, r: Option<PipelineResult>) {
    && (r.Some? <==> recognised.Some? && m.translate(p.translator, recognised.value).Some?)
    && (r.Some? ==>
          && recognised == Some(r.value.sourceText)
          && m.translate(p.translator, r.value.sourceText) == Some(r.value.translatedText)
          && r.value.sourceLang == p.sourceLang
          && r.value.targetLang == p.targetLang)
  }

  /** `translate_speech_from_file(path)`. */
  function TranslateSpeechFromFile(p: SpeechPipeline, m: Models, fs: FileSystem, path: string)
    : (r: Option<PipelineResult>)
    ensures Describes(p, m, TranscribeFile(m, p.asr, fs, path, p.sourceLang), r)
    ensures path !in fs ==> r.None?
  {
    Compose(p, m, TranscribeFile(m, p.asr, fs, path, p.sourceLang))
  }

  /** `translate_speech(audio_array, sampling_rate)` on a one-dimensional array. */
  function TranslateSpeech(p: SpeechPipeline, m: Models, samples: seq<Sample>, rate: nat)
    : (r: Option<PipelineResult>)
    ensures Describes(p, m, m.transcribe(p.asr, AudioData(samples, rate, 1), p.sourceLang), r)
  {
    Compose(p, m, m.transcribe(p.asr, AudioData(samples, rate, 1), p.sourceLang))
  }

  /** The result is determined by the recognised text: equal transcriptions give equal results. */
  lemma ResultDeterminedByText(p: SpeechPipeline, m: Models, fs: FileSystem, path: string,
                               samples: seq<Sample>, rate: nat)
    requires TranscribeFile(m, p.asr, fs, path, p.sourceLang)
             == m.transcribe(p.asr, AudioData(samples, rate, 1), p.sourceLang)
    ensures TranslateSpeechFromFile(p, m, fs, path) == TranslateSpeech(p, m, samples, rate)
  {
  }

  /**
   * Processing a mono file is processing the samples it holds at its rate.
   * This rests on the model handing the recogniser int16 samples on both
   * paths: the program reads a file as floats in [-1, 1], while an int16
   * array is cast and divided by its peak, so the two arrays differ by scale.
   */
  lemma FileMatchesArray(p: SpeechPipeline, m: Models, fs: FileSystem, path: string)
    requires ReadAudio(fs, path).Some? && ReadAudio(fs, path).value.channels == 1
    ensures var a := ReadAudio(fs, path).value;
      TranslateSpeechFromFile(p, m, fs, path) == TranslateSpeech(p, m, a.samples, a.rate)
  {
    var a := ReadAudio(fs, path).value;
    assert a == AudioData(a.samples, a.rate, 1);
  }
}

=== FILE: text.dfy ===
/**
 * The Python string operations the command line relies on: `str.isspace`,
 * `str.split()` without a separator, `str.strip()`, ASCII `str.lower()`,
 * `str.replace`, `" ".join`, `os.path.basename`, `os.path.join` (POSIX) and
 * `int(str)`.
 */
module Text {
  import opened Wrappers

  /** Python's `str.isspace` for one character. */
  predicate IsSpace(c: char) {
    || c == ' '
    || ('\t' <= c <= '\r')
    || ('\U{1c}' <= c <= '\U{1f}')
    || c == '\U{85}' || c == '\U{a0}' || c == '\U{1680}'
    || ('\U{2000}' <= c <= '\U{200a}')
    || c == '\U{2028}' || c == '\U{2029}' || c == '\U{202f}'
    || c == '\U{205f}' || c == '\U{3000}'
  }

  predicate NoSpace(s: string) {
    forall i :: 0 <= i < |s| ==> !IsSpace(s[i])
  }

  predicate AllSpace(s: string) {
    forall i :: 0 <= i < |s| ==> IsSpace(s[i])
  }

  /** A field produced by `str.split()`: non-empty and free of whitespace. */
  predicate IsToken(w: string) {
    |w| > 0 && NoSpace(w)
  }

  /** The characters of `s` that are not whitespace, in order. */
  function RemoveSpace(s: string): string {
    if s == [] then []
    else if IsSpace(s[0]) then RemoveSpace(s[1..])
    else [s[0]] + RemoveSpace(s[1..])
  }

  /** Concatenation of a list of strings, `"".join(ws)`. */
  function Concat(ws: seq<string>): string {
    if ws == [] then [] else ws[0] + Concat(ws[1..])
  }

  /** `sep.join(ws)`. */
  function Join(ws: seq<string>, sep: string): string {
    if ws == [] then []
    else if |ws| == 1 then ws[0]
    else ws[0] + sep + Join(ws[1..], sep)
  }

  // ---------------------------------------------------------------------
  // str.split()
  // ---------------------------------------------------------------------

  /** `s.split()`: the maximal runs of non-whitespace characters of `s`. */
  function Split(s: string): (r: seq<string>)
    ensures forall i :: 0 <= i < |r| ==> IsToken(r[i])
  {
    SplitFrom(s, [])
  }

  /** Splitting with a partly read field `cur` carried along. */
  function SplitFrom(s: string, cur: string): (r: seq<string>)
    requires NoSpace(cur)
    ensures forall i :: 0 <= i < |r| ==> IsToken(r[i])
    decreases |s|
  {
    if s == [] then (if cur == [] then [] else [cur])
    else if IsSpace(s[0]) then
      (if cur == [] then SplitFrom(s[1..], []) else [cur] + SplitFrom(s[1..], []))
    else SplitFrom(s[1..], cur + [s[0]])
  }

  lemma {:induction false} SplitFromContents(s: string, cur: string)
    requires NoSpace(cur)
    ensures Concat(SplitFrom(s, cur)) == cur + RemoveSpace(s)
    decreases |s|
  {
    if s == [] {
    } else if IsSpace(s[0]) {
      SplitFromContents(s[1..], []);
      if cur != [] {
        assert Concat([cur] + SplitFrom(s[1..], [])) == cur + Concat(SplitFrom(s[1..], []));
      }
    } else {
      SplitFromContents(s[1..], cur + [s[0]]);
    }
  }

  /** Splitting drops exactly the whitespace: the fields concatenated give back every other character. */
  lemma SplitContents(s: string)
    ensures Concat(Split(s)) == RemoveSpace(s)
  {
    SplitFromContents(s, []);
  }

  lemma {:induction false} SplitFromEmpty(s: string, cur: string)
    requires NoSpace(cur)
    ensures SplitFrom(s, cur) == [] <==> cur == [] && AllSpace(s)
    decreases |s|
  {
    if s != [] {
      SplitFromEmpty(s[1..], if IsSpace(s[0]) then [] else cur + [s[0]]);
      if AllSpace(s[1..]) && IsSpace(s[0]) {
        assert AllSpace(s) by {
          forall i | 0 <= i < |s| ensures IsSpace(s[i]) {
            if i > 0 { assert s[i] == s[1..][i - 1]; }
          }
        }
      }
      if AllSpace(s) {
        assert AllSpace(s[1..]) by {
          forall i | 0 <= i < |s| - 1 ensures IsSpace(s[1..][i]) {
            assert s[1..][i] == s[i + 1];
          }
        }
      }
    }
  }

  /** A line has no fields exactly when it is all whitespace. */
  lemma SplitEmpty(s: string)
    ensures Split(s) == [] <==> AllSpace(s)
  {
    SplitFromEmpty(s, []);
  }

  lemma {:induction false} SplitFromWord(w: string, rest: string, cur: string)
    requires NoSpace(w) && NoSpace(cur)
    ensures SplitFrom(w + rest, cur) == SplitFrom(rest, cur + w)
    decreases |w|
  {
    if w == [] {
      assert w + rest == rest && cur + w == cur;
    } else {
      assert (w + rest)[0] == w[0];
      assert (w + rest)[1..] == w[1..] + rest;
      assert cur + [w[0]] + w[1..] == cur + w;
      SplitFromWord(w[1..], rest, cur + [w[0]]);
    }
  }

  /** Joining fields with single spaces and splitting again gives back the fields. */
  lemma {:induction false} SplitJoin(ws: seq<string>)
    requires forall i :: 0 <= i < |ws| ==> IsToken(ws[i])
    ensures Split(Join(ws, " ")) == ws
    decreases |ws|
  {
    if |ws| == 1 {
      SplitFromWord(ws[0], [], []);
      assert ws[0] + [] == ws[0];
      assert Join(ws, " ") == ws[0];
      assert SplitFrom([], ws[0]) == [ws[0]];
    } else if |ws| > 1 {
      var j := Join(ws[1..], " ");
      SplitJoin(ws[1..]);
      assert Join(ws, " ") == ws[0] + (" " + j);
      SplitFromWord(ws[0], " " + j, []);
      assert ([] + ws[0]) == ws[0];
      assert (" " + j)[1..] == j;
      assert SplitFrom(" " + j, ws[0]) == [ws[0]] + SplitFrom(j, []);
    }
  }

  lemma {:induction false} SplitFromLeadingSpace(sp: string, t: string)
    requires AllSpace(sp)
    ensures SplitFrom(sp + t, []) == SplitFrom(t, [])
    decreases |sp|
  {
    if sp == [] {
      assert sp + t == t;
    } else {
      assert (sp + t)[0] == sp[0];
      assert (sp + t)[1..] == sp[1..] + t;
      SplitFromLeadingSpace(sp[1..], t);
    }
  }

  lemma {:induction false} SplitFromTrailingSpace(t: string, sp: string, cur: string)
    requires AllSpace(sp) && NoSpace(cur)
    ensures SplitFrom(t + sp, cur) == SplitFrom(t, cur)
    decreases |t| + |sp|
  {
    if t == [] {
      if sp != [] {
        assert ([] + sp) == sp;
        assert sp[0] == sp[0];
        SplitFromTrailingSpace([], sp[1..], []);
        assert [] + sp[1..] == sp[1..];
        assert SplitFrom(sp[1..], []) == [] by { SplitFromEmpty(sp[1..], []); }
      }
    } else {
      assert (t + sp)[0] == t[0];
      assert (t + sp)[1..] == t[1..] + sp;
      var next := if IsSpace(t[0]) then [] else cur + [t[0]];
      SplitFromTrailingSpace(t[1..], sp, next);
    }
  }

  // ---------------------------------------------------------------------
  // str.strip()
  // ---------------------------------------------------------------------

  /** `s.lstrip()`: the suffix of `s` after its leading whitespace. */
  function StripLeading(s: string): (r: string)
    ensures |r| <= |s| && r == s[|s| - |r|..]
    ensures AllSpace(s[..|s| - |r|])
    ensures r == [] || !IsSpace(r[0])
    decreases |s|
  {
    if s != [] && IsSpace(s[0]) then
      var r := StripLeading(s[1..]);
      assert s[..|s| - |r|] == [s[0]] + s[1..][..|s| - 1 - |r|];
      r
    else s
  }

  /** `s.rstrip()`: the prefix of `s` before its trailing whitespace. */
  function StripTrailing(s: string): (r: string)
    ensures |r| <= |s| && r == s[..|r|]
    ensures AllSpace(s[|r|..])
    ensures r == [] || !IsSpace(r[|r| - 1])
    decreases |s|
  {
    if s != [] && IsSpace(s[|s| - 1]) then
      var r := StripTrailing(s[..|s| - 1]);
      assert s[|r|..] == s[..|s| - 1][|r|..] + [s[|s| - 1]];
      r
    else s
  }

  /** `s.strip()`. */
  function Strip(s: string): string {
    StripTrailing(StripLeading(s))
  }

  /** Stripping removes whitespace at both ends only, so it never changes the fields. */
  lemma SplitStrip(s: string)
    ensures Split(Strip(s)) == Split(s)
  {
    SplitStripLeading(s);
    SplitStripTrailing(StripLeading(s));
  }

  lemma SplitStripLeading(s: string)
    ensures Split(StripLeading(s)) == Split(s)
  {
    var l := StripLeading(s);
    var lead := s[..|s| - |l|];
    assert s == lead + l;
    SplitFromLeadingSpace(lead, l);
  }

  lemma SplitStripTrailing(l: string)
    ensures Split(StripTrailing(l)) == Split(l)
  {
    var t := StripTrailing(l);
    var trail := l[|t|..];
    assert l == t + trail;
    SplitFromTrailingSpace(t, trail, []);
  }

  /** A stripped line is empty exactly when the line is all whitespace. */
  lemma StripEmpty(s: string)
    ensures Strip(s) == [] <==> AllSpace(s)
  {
    SplitStrip(s);
    SplitEmpty(s);
    SplitEmpty(Strip(s));
    var t := Strip(s);
    if t != [] {
      assert !IsSpace(t[0]);
      assert !AllSpace(t);
    }
  }

  // ---------------------------------------------------------------------
  // str.lower() on ASCII letters
  // ---------------------------------------------------------------------

  function LowerChar(c: char): char {
    if 'A' <= c <= 'Z' then (c as int + 32) as char else c
  }

  /** `s.lower()` restricted to the ASCII letters. */
  function Lower(s: string): string {
    seq(|s|, i requires 0 <= i < |s| => LowerChar(s[i]))
  }

  // ---------------------------------------------------------------------
  // str.replace
  // ---------------------------------------------------------------------

  /** `pat` occurs in `s` at index `i`. */
  predicate OccursAt(s: string, pat: string, i: int) {
    0 <= i && i + |pat| <= |s| && s[i..i + |pat|] == pat
  }

  /** `s.replace(pat, rep)`: every non-overlapping occurrence, scanned left to right. */
  function ReplaceAll(s: string, pat: string, rep: string): string
    requires pat != []
    decreases |s|
  {
    if |s| < |pat| then s
    else if s[..|pat|] == pat then rep + ReplaceAll(s[|pat|..], pat, rep)
    else [s[0]] + ReplaceAll(s[1..], pat, rep)
  }

  /** Replacing a pattern that does not occur leaves the string as it is. */
  lemma {:induction false} ReplaceAbsent(s: string, pat: string, rep: string)
    requires pat != []
    requires forall i :: !OccursAt(s, pat, i)
    ensures ReplaceAll(s, pat, rep) == s
    decreases |s|
  {
    if |s| >= |pat| {
      assert !OccursAt(s, pat, 0);
      forall i ensures !OccursAt(s[1..], pat, i) {
        assert !OccursAt(s, pat, i + 1);
        if 0 <= i && i + |pat| <= |s[1..]| {
          assert s[1..][i..i + |pat|] == s[i + 1..i + 1 + |pat|];
        }
      }
      ReplaceAbsent(s[1..], pat, rep);
    }
  }

  /**
   * When the only occurrence of `pat` in `stem + pat` is the final one,
   * replacing it swaps exactly that suffix.
   */
  lemma {:induction false} ReplaceFinal(stem: string, pat: string, rep: string)
    requires pat != []
    requires forall i :: 0 <= i < |stem| ==> !OccursAt(stem + pat, pat, i)
    ensures ReplaceAll(stem + pat, pat, rep) == stem + rep
    decreases |stem|
  {
    var s := stem + pat;
    if stem == [] {
      assert s == pat;
      assert s[|pat|..] == [];
    } else {
      assert !OccursAt(s, pat, 0);
      assert s[..|pat|] != pat;
      assert s[1..] == stem[1..] + pat;
      forall i | 0 <= i < |stem[1..]| ensures !OccursAt(stem[1..] + pat, pat, i) {
        assert !OccursAt(s, pat, i + 1);
        if i + |pat| <= |stem[1..] + pat| {
          assert stem[1..] + pat == s[1..];
          assert s[1..][i..i + |pat|] == s[i + 1..i + 1 + |pat|];
        }
      }
      ReplaceFinal(stem[1..], pat, rep);
      assert [stem[0]] + (stem[1..] + rep) == stem + rep;
    }
  }

  /** A character absent from the string and from the replacement is absent from the result. */
  lemma {:induction false} ReplaceKeepsOut(s: string, pat: string, rep: string, c: char)
    requires pat != []
    requires c !in s && c !in rep
    ensures c !in ReplaceAll(s, pat, rep)
    decreases |s|
  {
    if |s| >= |pat| {
      if s[..|pat|] == pat {
        assert forall x :: x in s[|pat|..] ==> x in s;
        ReplaceKeepsOut(s[|pat|..], pat, rep, c);
      } else {
        assert forall x :: x in s[1..] ==> x in s;
        assert s[0] in s;
        ReplaceKeepsOut(s[1..], pat, rep, c);
      }
    }
  }

  /** A stem without '.' followed by `pat` starting with '.' contains `pat` only at the end. */
  lemma DotFreeStem(stem: string, pat: string)
    requires pat != [] && pat[0] == '.'
    requires '.' !in stem
    ensures forall i :: 0 <= i < |stem| ==> !OccursAt(stem + pat, pat, i)
  {
    forall i | 0 <= i < |stem| ensures !OccursAt(stem + pat, pat, i) {
      assert stem[i] in stem;
      if i + |pat| <= |stem + pat| {
        assert (stem + pat)[i..i + |pat|][0] == stem[i];
      }
    }
  }

  // ---------------------------------------------------------------------
  // os.path (POSIX)
  // ---------------------------------------------------------------------

  /** `os.path.basename(p)`: the part of `p` after its last '/'. */
  function Basename(p: string): (r: string)
    ensures '/' !in r
    ensures |r| <= |p| && r == p[|p| - |r|..]
    ensures |r| < |p| ==> p[|p| - |r| - 1] == '/'
  {
    if p == [] then []
    else if p[|p| - 1] == '/' then []
    else
      var r := Basename(p[..|p| - 1]);
      r + [p[|p| - 1]]
  }

  /** `os.path.join(a, b)` for two components. */
  function JoinPath(a: string, b: string): string {
    if |b| > 0 && b[0] == '/' then b
    else if a == [] || a[|a| - 1] == '/' then a + b
    else a + "/" + b
  }

  /** The base name of `dir + "/" + name` is `name` whenever `name` holds no '/'. */
  lemma {:induction false} BasenameAfterSlash(dir: string, name: string)
    requires '/' !in name
    ensures Basename(dir + "/" + name) == name
    decreases |name|
  {
    var p := dir + "/" + name;
    if name == [] {
      assert p[|p| - 1] == '/';
    } else {
      var init := name[..|name| - 1];
      assert name[|name| - 1] in name;
      assert p[..|p| - 1] == dir + "/" + init;
      assert p[|p| - 1] == name[|name| - 1];
      assert forall c :: c in init ==> c in name;
      BasenameAfterSlash(dir, init);
      assert init + [name[|name| - 1]] == name;
    }
  }

  /** The base name of a joined path is the file name that was joined. */
  lemma BasenameOfJoin(dir: string, name: string)
    requires '/' !in name && dir != [] && dir[|dir| - 1] != '/'
    ensures Basename(JoinPath(dir, name)) == name
  {
    if |name| > 0 {
      assert name[0] in name;
    }
    assert JoinPath(dir, name) == dir + "/" + name;
    BasenameAfterSlash(dir, name);
  }

  // ---------------------------------------------------------------------
  // int(str) and str(int)
  // ---------------------------------------------------------------------

  predicate IsDigit(c: char) {
    '0' <= c <= '9'
  }

  /** Decimal digits, with single underscores allowed between digits, as `int()` accepts. */
  predicate DigitString(s: string) {
    && |s| > 0
    && IsDigit(s[0]) && IsDigit(s[|s| - 1])
    && (forall i :: 0 <= i < |s| ==> IsDigit(s[i]) || s[i] == '_')
    && (forall i :: 0 <= i < |s| - 1 ==> s[i] == '_' ==> s[i + 1] != '_')
  }

  /** The number a digit string denotes, underscores ignored. */
  function DigitsValue(s: string): nat {
    if s == [] then 0
    else if IsDigit(s[|s| - 1]) then
      DigitsValue(s[..|s| - 1]) * 10 + (s[|s| - 1] as int - '0' as int)
    else DigitsValue(s[..|s| - 1])
  }

  /** `int(s)` for a decimal string; `None` where Python raises ValueError. */
  function ParseInt(s: string): Option<int> {
    var t := Strip(s);
    if |t| > 0 && (t[0] == '+' || t[0] == '-') then
      var body := t[1..];
      if DigitString(body) then
        var v: int := DigitsValue(body);
        Some(if t[0] == '-' then -v else v)
      else None
    else if DigitString(t) then Some(DigitsValue(t))
    else None
  }

  /** `str(n)` for a natural number. */
  function ShowNat(n: nat): (r: string)
    ensures |r| > 0 && forall i :: 0 <= i < |r| ==> IsDigit(r[i])
  {
    if n < 10 then ['0' + n as char]
    else ShowNat(n / 10) + ['0' + (n % 10) as char]
  }

  /** `str(n)`. */
  function ShowInt(n: int): string {
    if n < 0 then "-" + ShowNat(-n) else ShowNat(n)
  }

  lemma {:induction false} ShowNatValue(n: nat)
    ensures DigitString(ShowNat(n)) && DigitsValue(ShowNat(n)) == n
  {
    var s := ShowNat(n);
    if n >= 10 {
      ShowNatValue(n / 10);
      assert s[..|s| - 1] == ShowNat(n / 10);
    }
  }

  /** A string with no whitespace at either end is its own strip. */
  lemma StripUnchanged(s: string)
    requires s == [] || (!IsSpace(s[0]) && !IsSpace(s[|s| - 1]))
    ensures Strip(s) == s
  {
    assert StripLeading(s) == s;
    assert StripTrailing(s) == s;
  }

  /** `int(str(n)) == n`: the parser reads back every printed integer. */
  lemma ParseShowInt(n: int)
    ensures ParseInt(ShowInt(n)) == Some(n)
  {
    var s := ShowInt(n);
    var m: nat := if n < 0 then -n else n;
    var digits := ShowNat(m);
    ShowNatValue(m);
    assert IsDigit(digits[0]) && IsDigit(digits[|digits| - 1]);
    if n < 0 {
      assert s == "-" + digits;
      assert s[|s| - 1] == digits[|digits| - 1];
      StripUnchanged(s);
      assert s[1..] == digits;
    } else {
      assert s == digits;
      StripUnchanged(s);
    }
  }
}

=== FILE: wrappers.dfy ===
/** Option and Result, the failure-carrying values used throughout the model. */
module Wrappers {

  /** A value that may be absent; `None` also stands for "the call raised". */
  datatype Option<+T> = None | Some(value: T) {

    /** The carried value, or `default` when absent. */
    function GetOr(default: T): T {
      match this
      case Some(v) => v
      case None => default
    }
  }

  /** A value or the reason it could not be produced. */
  datatype Result<+R, +E> = Success(value: R) | Failure(error: E)
}
